=== FILE: README.md ===
# afd_crawler core, modelled in Dafny

`afd_crawler.py` logs in to afdian.com, reads an album's catalogue, fetches
each post and writes it as a Markdown file. It keeps a progress file
`finished.txt` that lists the ids of articles already downloaded. This project
models the parts of that script that are pure logic. The HTTP responses and
the contents of the progress file are replaced by parameters; the clock, read
once into a value the code never uses, is left out.

- **Filename** (`filename.dfy`): `check_filename`, the chain of twelve
  one-character `str.replace` calls that cleans a post title into a file name.
  The module also gives the per-character table that chain amounts to, and the
  `<name>.md` file name that `save_to_file` builds.
- **CookieJar** (`cookie_jar.dfy`): the `Cookie` class. The dict is modelled as
  an association list in insertion order, with distinct names.
  - A dict assignment is `Put`.
  - The successive assignments of `{**a, **b}` and of the `list_to_dict` loop
    are one fold, `Merge`.
  - The module also covers `cookie_string`, `list_to_dict`,
    `load_string_cookie` and the constructor.
- **SetCookie** (`set_cookie.dfy`): `load_set_cookie`.
  - `re.sub(".xpires=.*?;", "", s)` is modelled literally as a left-to-right
    scan. At each position it takes the shortest match, which is what the lazy
    `.*?` selects. `.` and `.*?` do not match a line feed.
  - Then comes the split on `,`, and for each piece the text before its first
    `;`.
- **Progress** (`progress.dfy`): the line format of `finished.txt`.
  - The saver appends `id + "\n"` for each id.
  - The loader opens the file in text mode, so `\r\n` and a lone `\r` read as
    `\n`. It then calls `readlines()`, strips `\n` from both ends of each line,
    drops empty lines and deduplicates.
- **Catalog** (`catalog.dfy`): `_parser_products`, as a loop with a recursive
  reference definition.
- **Responses** (`responses.dfy`): the status and code checks. They compare
  `str(res.json().get('code', ''))` with `'-1'` or `'0'`, and `ec` with the
  number 200. A decoded JSON scalar and Python's `str()` of it are modelled.
- **Session** (`session.dfy`): the steps of `GeekCrawler`. Each step turns the
  server's answer into the crawler's next state, or into the exception it
  raises together with the state it leaves.
  - The state holds the cookie jar, the product list, the progress file and
    the ids finished in this run.
  - A step that saves progress before raising applies the saver to the file.
- **Albums** (`albums.dfy`): the album-id collection loop of
  `fetch_all_albums`.
- `wrappers.dfy`, `text.dfy` and `seqs.dfy` hold the `Option`/`Result` types,
  `str.split`/`str.join` on one separator, and small sequence lemmas.

Two behaviours of the code are easy to misread. The model follows the code in
both:

- `load_set_cookie`: the lazy pattern does not stop at the comma that
  separates two cookies. Take an expiry attribute that is the last attribute
  of its cookie. Its match runs on into the next cookie, up to that cookie's
  first `;`, and removes that cookie's name and value. So the header
  `a=1;expires=0,b=2;` yields the cookie `a` alone.
  `SetCookie.LoadSetCookieSwallowsNextCookie` proves this for that header.
- `_product`: a catalogue request with a bad status raises `RequestError`
  without saving progress (lines 238-241). Every other failure of the login,
  account and catalogue checks saves progress first: `_login` at line 193,
  `_user_auth` at line 217 and the empty-data failure of `_product` itself at
  line 247. The two `RequestError`s of `_get_post_content` (lines 283 and
  288), reached from `_product` at line 260, do not save progress either, and
  neither does the `TypeError` a product with a `None` title raises at line
  257.

## Model

| member | source | states |
|---|---|---|
| Filename.CheckFilename | afd_crawler.py:56-75 | the cleaned name is never longer than the title |
| Filename.CharImage | afd_crawler.py:64-75 | the replacement table per character: exactly the eight dropped characters map to nothing, exactly the characters outside the table map to themselves, and no image holds a character of the table |
| Filename.CheckFilenameIsCharMap | afd_crawler.py:64-75 | the twelve chained replacements equal the independent per-character map of the table |
| Filename.CheckFilenameClean | afd_crawler.py:56-75 | no cleaned name holds `\`, `/`, `*`, `?`, `<`, `>`, `|`, line feed, backspace, form feed, tab or carriage return |
| Filename.CheckFilenameLength | afd_crawler.py:64-75 | the cleaned name is shorter than the title by exactly the number of dropped characters |
| Filename.CheckFilenameKeepsCleanName | afd_crawler.py:64-75 | a title with none of those characters comes through unchanged |
| Filename.CheckFilenameIdempotent | afd_crawler.py:64-75 | cleaning twice gives the same name as cleaning once |
| Filename.CheckFilenamePositionwise | afd_crawler.py:64-75 | without characters to drop, the length is kept and position i holds the image of title character i |
| Filename.ExportName | afd_crawler.py:325-330 | the written file name ends in `.md` and holds no `/` or `\` |
| Session.ExportPath | afd_crawler.py:262-266 | the export path is `9adgq/` followed by a name free of `/` and `\` that ends in `.md`, so no title leaves the directory |
| CookieJar.Put | afd_crawler.py:93-94 | `set_cookie`: the key maps to the value; an existing key keeps its position and a new key goes last; every other key keeps its value |
| CookieJar.Merge | afd_crawler.py:124 | successive assignments: the jar's keys keep their positions, new keys follow in first-seen order, and each key takes its last assigned value or else keeps the jar's |
| CookieJar.MergeDicts | afd_crawler.py:124 | `{**a, **b}`: keys of `a` stay first and in place; a key takes `b`'s value when `b` has it and otherwise `a`'s |
| CookieJar.ParsePair | afd_crawler.py:107-110 | a fragment yields nothing exactly when it has no `=`; otherwise the key is the text before the first `=`, and the value is the text after it up to the next `=` or the end |
| CookieJar.ListToDict | afd_crawler.py:97-112 | the result has distinct keys in first-seen order, each with the value of its last fragment, and every entry comes from some fragment |
| CookieJar.ListToDictStep | afd_crawler.py:106-111 | one more fragment either assigns its pair over the dict built so far or, without `=`, leaves it unchanged |
| CookieJar.ListToDictSkipsPlainFragment | afd_crawler.py:108-111 | a fragment without `=` changes nothing wherever it stands |
| CookieJar.LoadStringCookie | afd_crawler.py:114-124 | the jar's keys stay first; a key named in the string takes the string's last value for it, and every other key keeps its value |
| CookieJar.CookieStringRoundTrip | afd_crawler.py:85-91 | loading `cookie_string` into an empty jar rebuilds the jar, provided no name or value holds `;` or `=` |
| CookieJar.CookieString | afd_crawler.py:85-91 | an empty jar renders as the empty string; a jar whose names and values hold no `;` renders as its `name=value` texts, which splitting on `;` gives back one by one, values holding `=` included |
| CookieJar.CookieStringOfPaddedToken | afd_crawler.py:199-200 | a jar holding only an `auth_token` whose value ends in `==` renders as the single piece `auth_token=abc==` |
| CookieJar.MergeOfDict | afd_crawler.py:106-111 | building the dict of a cookie list first and then merging it over a jar gives the same jar as assigning the list's cookies over the jar one by one |
| CookieJar.NewJar | afd_crawler.py:79-82 | the constructor gives a well-formed jar; no string, or an empty one, gives the empty jar |
| SetCookie.ExpiresMatch | afd_crawler.py:133 | the lazy pattern at one position: the length found is a match and no shorter match exists; None only when no length matches |
| SetCookie.StripExpiresWithoutMarker | afd_crawler.py:133 | a header without `xpires=` passes the substitution unchanged |
| SetCookie.StripExpires | afd_crawler.py:133 | the substitution never lengthens the header |
| SetCookie.StripExpiresWithoutSemicolon | afd_crawler.py:133 | a header without `;` passes the substitution unchanged, since every match ends in `;` |
| SetCookie.SetCookieFragments | afd_crawler.py:133-137 | one fragment per comma-separated piece of the substituted header, so at least one; each fragment is the start of its piece up to the piece's first `;` or its end, and holds no `,` or `;` |
| SetCookie.LoadSetCookie | afd_crawler.py:126-139 | the jar's keys stay first; a key the header names takes the header's last value for it, and every other key keeps its value |
| SetCookie.SetCookieCookiesPlain | afd_crawler.py:133-137 | no cookie read from any header holds `,`, `;` or `=` in its name or value |
| SetCookie.LoadSetCookieOfPlainHeader | afd_crawler.py:126-139 | a header of plain cookies without `xpires=` has the effect of assigning each `name=value` over the jar in order, ignoring the attributes, so a repeated name ends with its last value |
| SetCookie.LoadSetCookieKeepsLastValue | afd_crawler.py:106-111 | for `a=1,a=2` the empty jar ends with the single cookie `a=2` |
| SetCookie.LoadSetCookieSwallowsNextCookie | afd_crawler.py:133-139 | for `a=1;expires=0,b=2;` the result is the cookie `a` alone |
| Progress.Universal | afd_crawler.py:38 | text-mode reading: no `\r` survives, the text does not grow, and a text without `\r` reads unchanged |
| Progress.UniversalCrLf | afd_crawler.py:38 | a `\r\n` pair after `\r`-free text reads as one `\n`, and the rest reads on from there |
| Progress.UniversalLoneCr | afd_crawler.py:38 | a `\r` not followed by `\n`, after `\r`-free text, reads as one `\n`, and the rest reads on from there |
| Progress.ReadLines | afd_crawler.py:39 | `readlines()`: the lines put back together give the text |
| Progress.ReadLinesShape | afd_crawler.py:39 | every line is non-empty with `\n` at most at its end, and holds no `\r` when the text has none |
| Progress.ReadLinesBreaks | afd_crawler.py:39 | every line but the last ends in `\n`, so only the last may be cut short by the end of the text |
| Progress.Leading | afd_crawler.py:40 | the number of `\n` characters that open a line: all of them are `\n` and the next character is not |
| Progress.Strip | afd_crawler.py:40 | `strip('\n')`: the result is the slice that starts after the leading `\n` characters and leaves only `\n` characters after it, it neither starts nor ends with `\n`, and a line without `\n` is kept unchanged |
| Progress.LoadIds | afd_crawler.py:32-43 | every loaded id is non-empty and holds no line break; duplicates collapse |
| Progress.Save | afd_crawler.py:46-53 | appending keeps the old file as a prefix, lengthens it by exactly the records written, and keeps a file that ends on a line break in that state |
| Progress.LoadAfterSave | afd_crawler.py:32-53 | loading after a save gives the ids that were there plus those saved, when the file ended on a line break and each id is non-empty and free of line breaks |
| Progress.SavedTwice | afd_crawler.py:32-53 | saving `x, y` then `y, z` into a new file loads back as `{x, y, z}` |
| Session.Flush | afd_crawler.py:193 | saving before an exception leaves the jar, the products and the run's ids alone and always leaves a file behind |
| Session.FlushKeepsProgress | afd_crawler.py:193 | saving before an exception keeps every id finished in this run and every id the file already held |
| Text.Split | afd_crawler.py:134 | `str.split` on one character: at least one piece, no piece holds the separator, joining the pieces gives the text back, and there is one piece exactly when the separator is absent |
| Text.Join | afd_crawler.py:91 | `str.join` on one character: a single piece joins to itself, and two or more separator-free pieces join to a text that holds the separator |
| Text.SplitJoin | afd_crawler.py:91 | splitting a join of separator-free pieces gives the pieces back |
| Text.Head | afd_crawler.py:137 | `split(sep)[0]`: the longest separator-free prefix, followed in the text by the separator or by its end |
| Responses.LoginRejectedIff | afd_crawler.py:192 | the login check fails exactly for a status other than 200, the code number -1 or the code string `-1` |
| Responses.AuthRejectedIff | afd_crawler.py:216 | the account check passes exactly for status 200 with the code number 0 or the code string `0`; a missing code fails |
| Responses.DigitsRoundTrip | afd_crawler.py:192 | `str()` of a natural number reads back as that number, the fact behind both code comparisons |
| Session.Login | afd_crawler.py:192-199 | `_login` raises `RequestError` exactly when the check fails, and saves progress first; otherwise the jar stays well-formed, `auth_token` is set to the token (to the text `None` when the token is missing) and goes last if it was not there, every other cookie keeps its value and position, and nothing else changes |
| Session.UserAuth | afd_crawler.py:216-221 | `_user_auth` succeeds exactly on status 200 with code 0; a failure saves progress and raises; a success merges the `Set-Cookie` cookies over the jar, keeping it well-formed with its names first and in place |
| Session.ListCatalog | afd_crawler.py:238-250 | a bad status raises `RequestError` and changes nothing; empty or missing data saves progress and raises `NotValueError`; otherwise the listing's products are appended |
| Session.EmptyListIsNotAnError | afd_crawler.py:243-245 | a data object whose list is empty is truthy and adds nothing |
| Session.PostContent | afd_crawler.py:281-292 | the content is returned exactly when the status is 200 and `ec` is the number 200 (the string `"200"` does not pass); otherwise `RequestError` |
| Catalog.ProductOf | afd_crawler.py:306-311 | a product's `post_id` and `title` are the post's fields when present and `None` otherwise |
| Catalog.ParseProducts | afd_crawler.py:294-313 | one product per post, in order, each built from its post; a listing without `list` gives none |
| Catalog.ProductsAppend | afd_crawler.py:294-313 | the products of two post lists in a row are those of each, in order |
| Albums.FetchAllAlbums | afd_crawler.py:353-380 | on status 200, the result is exactly the set of non-empty album ids mentioned by some album of some post; otherwise it is empty; the empty string is never in it |

## Left out

- HTTP requests, headers and `res.json()` decoding are left out. Each step
  receives the status and the decoded fields as parameters. A body that is not
  JSON, or whose `data` is other than an object or `null`, is not modelled.
- JSON values are modelled only as scalars: integers, strings, booleans and
  `null`. Floats (whose `str()` the code checks could also see) and nested
  values in `code` or `ec` are not modelled.
- File I/O is left out. The progress file is an `Option<string>`, where None
  means the file does not exist. The global `FINISH_ARTICLES` is passed in as
  the crawler's `finished` field. Writes are taken as byte-exact with `\n`;
  Windows newline translation on write is not modelled.
- JSON shapes other than the ones the code expects are not modelled. Album ids
  and the post fields are modelled as strings. So a numeric `album_id`, which
  the code collects when it is truthy (lines 375-377), and a numeric
  `post_id`, which it carries into the product (lines 306-311), are out of
  scope. So are a `null` `list` (line 304) or `albums` (line 372), on which
  the loop raises `TypeError`, and a post that is not an object, on which
  `.get` raises `AttributeError`.
- `_login` stores `data.auth_token` as it comes. The model stores strings
  only, and a missing token as the text `None`, which `cookie_string` renders
  exactly as it renders Python's `None`. A token of another JSON type is not
  modelled.
- `_save_finish_article_id_to_file` writes `str(i)`. The model takes the ids
  as strings already.
- `res.headers['Set-Cookie']` when the header is missing (a `KeyError`) is not
  modelled. `UserAuth` takes the header text.
- The export loop of `_product` (lines 254-266) is left out. It calls
  `_get_post_content`, which is `Session.PostContent`, and `save_to_file`,
  whose target path is `Session.ExportPath`. The loop itself is only
  sequencing of those calls. `html2text`, directory creation and the write are
  left out. A product whose title is `None` (a post without `title`) raises
  `TypeError` at line 257, before `_get_post_content` runs, without saving
  progress; since the loop is left out, so is that path, and `ExportPath`
  takes the title as a string.
- `fetch_all_albums`: the result is modelled as a set, because
  `list(set(...))` has no specified order. `response.json().get('data', {})`
  returning something other than an object is not modelled.
- `_load_finish_article`: the result is modelled as a set for the same reason.
- Logging, `time.time()`, `input()`, `_check`, `run`, the constructor of
  `GeekCrawler` and the `__main__` block are left out. They are interaction
  and configuration, not logic.
- `Filename.CheckFilename`: its own contract states only the length bound.
  What the name contains is stated by the lemmas in the table above.
- `SetCookie.LoadSetCookie`: its contract states the result in terms of the
  cookies read from the header, through `ListToDict`. What those cookies are,
  for a general header, is stated only by `SetCookieCookiesPlain`,
  `LoadSetCookieOfPlainHeader` and `LoadSetCookieSwallowsNextCookie`.
- `SetCookie.StripExpires`: its own contract states only that the header does
  not grow. Which text it removes is stated by `ExpiresMatch`,
  `StripExpiresWithoutMarker`, `StripExpiresWithoutSemicolon` and
  `LoadSetCookieSwallowsNextCookie`.
- `Text.Join`: its own contract states only the one-piece case and that the
  separator appears. That the join is the inverse of the split is stated by
  `Text.Split` and `Text.SplitJoin`.

=== FILE: albums.dfy ===
/** Collecting the album ids mentioned in a creator's post list
    (afd_crawler.py `fetch_all_albums`). */
module Albums {
  import opened Wrappers

  /** One entry of a post's `albums`; only its `album_id` is read. */
  datatype Album = Album(albumId: Option<string>)

  /** One post of the response's `list`; a missing `albums` key reads as `[]`. */
  datatype PostAlbums = PostAlbums(albums: seq<Album>)

  /** Python truthiness of `album.get('album_id')` for a string-valued field. */
  predicate Truthy(id: Option<string>)
  {
    id.Some? && id.value != ""
  }

  /** The reference: `id` is the album id of some album of some post. */
  ghost predicate Mentioned(posts: seq<PostAlbums>, id: string)
  {
    exists i, j :: 0 <= i < |posts| && 0 <= j < |posts[i].albums|
      && posts[i].albums[j].albumId == Some(id) && id != ""
  }

  /** The ids found so far: every truthy album id of the first `i` posts, and of
      the first `j` albums of post `i`. */
  ghost predicate Collected(posts: seq<PostAlbums>, i: nat, j: nat, ids: set<string>)
    requires i < |posts| ==> j <= |posts[i].albums|
  {
    forall id :: id in ids <==>
      (exists a, b :: 0 <= a < i && a < |posts| && 0 <= b < |posts[a].albums|
        && posts[a].albums[b].albumId == Some(id) && id != "")
      || (i < |posts| && exists b :: 0 <= b < j && posts[i].albums[b].albumId == Some(id) && id != "")
  }

  /** `fetch_all_albums`, given the response status and the decoded
      `data.list` (an absent list reads as `[]`): the distinct truthy album ids,
      or none when the status is not 200. */
  method FetchAllAlbums(status: int, posts: seq<PostAlbums>) returns (ids: set<string>)
    ensures status != 200 ==> ids == {}
    ensures status == 200 ==> forall id :: id in ids <==> Mentioned(posts, id)
    ensures "" !in ids
  {
    ids := {};
    if status != 200 || |posts| == 0 {
      return;
    }
    var i := 0;
    while i < |posts|
      invariant 0 <= i <= |posts|
      invariant Collected(posts, i, 0, ids)
    {
      var albums := posts[i].albums;
      var j := 0;
      while j < |albums|
        invariant 0 <= j <= |albums|
        invariant Collected(posts, i, j, ids)
      {
        var albumId := albums[j].albumId;
        if Truthy(albumId) {
          ids := ids + {albumId.value};
        }
        j := j + 1;
      }
      i := i + 1;
    }
  }
}

=== FILE: catalog.dfy ===
/** The album catalogue response and the product list built from it
    (afd_crawler.py `GeekCrawler._parser_products`). */
module Catalog {
  import opened Wrappers
  import opened Seqs

  /** One element of the catalogue's `list`: a JSON object, reduced to its
      string-valued fields. */
  datatype Post = Post(fields: map<string, string>)

  /** `post.get(key)`: the field, or `None` when the key is absent. */
  function Get(p: Post, key: string): (r: Option<string>)
    ensures r.Some? <==> key in p.fields
    ensures r.Some? ==> r.value == p.fields[key]
  {
    if key in p.fields then Some(p.fields[key]) else None
  }

  /** An entry of the crawler's product list: `{'post_id': .., 'title': ..}`. */
  datatype Product = Product(postId: Option<string>, title: Option<string>)

  /** The `data` object of the catalogue response: its `list` field, if present,
      and how many other keys it holds (only its truthiness depends on them). */
  datatype Listing = Listing(list: Option<seq<Post>>, otherKeys: nat)

  /** The posts `data.get('list', [])` iterates over. */
  function PostsOf(data: Listing): (posts: seq<Post>)
    ensures data.list.None? ==> posts == []
    ensures data.list.Some? ==> posts == data.list.value
  {
    data.list.GetOr([])
  }

  /** The product the loop appends for one post. */
  function ProductOf(p: Post): (r: Product)
    ensures r.postId.Some? <==> "post_id" in p.fields
    ensures r.title.Some? <==> "title" in p.fields
    ensures r.postId.Some? ==> r.postId.value == p.fields["post_id"]
    ensures r.title.Some? ==> r.title.value == p.fields["title"]
  {
    Product(Get(p, "post_id"), Get(p, "title"))
  }

  /** The reference: one product per post, in order. */
  function Products(posts: seq<Post>): (r: seq<Product>)
    ensures |r| == |posts|
  {
    if |posts| == 0 then [] else [ProductOf(posts[0])] + Products(posts[1..])
  }

  lemma {:induction false} ProductsAt(posts: seq<Post>, i: nat)
    requires i < |posts|
    ensures Products(posts)[i] == ProductOf(posts[i])
  {
    if i > 0 {
      ProductsAt(posts[1..], i - 1);
    }
  }

  /** `_parser_products`: walks the listing and collects one product per post. */
  method ParseProducts(data: Listing) returns (result: seq<Product>)
    ensures data.list.None? ==> result == []
    ensures |result| == |PostsOf(data)|
    ensures forall i :: 0 <= i < |result| ==> result[i] == ProductOf(PostsOf(data)[i])
    ensures result == Products(PostsOf(data))
  {
    var posts := PostsOf(data);
    result := [];
    var k := 0;
    while k < |posts|
      invariant 0 <= k <= |posts|
      invariant |result| == k
      invariant forall i :: 0 <= i < k ==> result[i] == ProductOf(posts[i])
    {
      result := result + [ProductOf(posts[k])];
      k := k + 1;
    }
    forall i | 0 <= i < |posts|
      ensures Products(posts)[i] == result[i]
    {
      ProductsAt(posts, i);
    }
  }

  /** The products of two listings in a row are those of each, in order. */
  lemma {:induction false} ProductsAppend(a: seq<Post>, b: seq<Post>)
    ensures Products(a + b) == Products(a) + Products(b)
  {
    if |a| == 0 {
      assert a + b == b;
    } else {
      assert (a + b)[1..] == a[1..] + b;
      ProductsAppend(a[1..], b);
      SeqAssoc([ProductOf(a[0])], Products(a[1..]), Products(b));
    }
  }
}

=== FILE: cookie_jar.dfy ===
/** The cookie jar of the crawler (afd_crawler.py class `Cookie`): a Python
    dict from cookie name to value, kept here as a list of cookies in the
    dict's insertion order, so that the serialised header can be stated. */
module CookieJar {
  import opened Wrappers
  import opened Text
  import opened Seqs

  /** One cookie, name and value exactly as parsed: nothing is trimmed. */
  datatype Cookie = Cookie(name: string, value: string)

  function Names(cs: seq<Cookie>): (ns: seq<string>)
    ensures |ns| == |cs|
  {
    if |cs| == 0 then [] else [cs[0].name] + Names(cs[1..])
  }

  /** A dict holds each name once. */
  predicate WellFormed(jar: seq<Cookie>)
  {
    |jar| == 0 || (jar[0].name !in Names(jar[1..]) && WellFormed(jar[1..]))
  }

  /** `jar.get(name)` */
  function Lookup(jar: seq<Cookie>, name: string): (r: Option<string>)
    ensures r.None? <==> name !in Names(jar)
    ensures r.Some? ==> Cookie(name, r.value) in jar
  {
    if |jar| == 0 then None
    else if jar[0].name == name then Some(jar[0].value)
    else Lookup(jar[1..], name)
  }

  lemma {:induction false} NameAt(cs: seq<Cookie>, i: nat)
    requires i < |cs|
    ensures Names(cs)[i] == cs[i].name
  {
    if i > 0 {
      NameAt(cs[1..], i - 1);
    }
  }

  /** In a dict, every stored cookie is what a lookup of its name returns. */
  lemma {:induction false} LookupFindsEntry(jar: seq<Cookie>, i: nat)
    requires WellFormed(jar)
    requires i < |jar|
    ensures Lookup(jar, jar[i].name) == Some(jar[i].value)
  {
    if i > 0 {
      assert jar[i] == jar[1..][i - 1];
      NameAt(jar[1..], i - 1);
      LookupFindsEntry(jar[1..], i - 1);
    }
  }

  /** `jar[name] = value` (`set_cookie`): an existing name keeps its position and
      takes the new value, a new name goes to the end, nothing else changes. */
  function Put(jar: seq<Cookie>, name: string, value: string): (r: seq<Cookie>)
    requires WellFormed(jar)
    ensures WellFormed(r)
    ensures Names(r) == if name in Names(jar) then Names(jar) else Names(jar) + [name]
    ensures Lookup(r, name) == Some(value)
    ensures forall n :: n != name ==> Lookup(r, n) == Lookup(jar, n)
  {
    if |jar| == 0 then [Cookie(name, value)]
    else if jar[0].name == name then
      PutHere(jar, name, value);
      [Cookie(name, value)] + jar[1..]
    else
      var rest := Put(jar[1..], name, value);
      PutBehind(jar, name, value, rest);
      [jar[0]] + rest
  }

  /** Assigning the first name replaces its value in place. */
  lemma {:induction false} PutHere(jar: seq<Cookie>, name: string, value: string)
    requires WellFormed(jar) && |jar| > 0 && jar[0].name == name
    ensures var r := [Cookie(name, value)] + jar[1..];
      && WellFormed(r)
      && Names(r) == Names(jar)
      && Lookup(r, name) == Some(value)
      && forall n :: n != name ==> Lookup(r, n) == Lookup(jar, n)
  {
    var r := [Cookie(name, value)] + jar[1..];
    assert r[1..] == jar[1..];
  }

  /** Assigning a later name leaves the first cookie where it is. */
  lemma {:induction false} PutBehind(jar: seq<Cookie>, name: string, value: string, rest: seq<Cookie>)
    requires WellFormed(jar) && |jar| > 0 && jar[0].name != name
    requires WellFormed(rest)
    requires Names(rest) == if name in Names(jar[1..]) then Names(jar[1..]) else Names(jar[1..]) + [name]
    requires Lookup(rest, name) == Some(value)
    requires forall n :: n != name ==> Lookup(rest, n) == Lookup(jar[1..], n)
    ensures var r := [jar[0]] + rest;
      && WellFormed(r)
      && Names(r) == (if name in Names(jar) then Names(jar) else Names(jar) + [name])
      && Lookup(r, name) == Some(value)
      && forall n :: n != name ==> Lookup(r, n) == Lookup(jar, n)
  {
    var r := [jar[0]] + rest;
    assert r[1..] == rest;
    assert Names(jar) == [jar[0].name] + Names(jar[1..]);
    assert Names(r) == [jar[0].name] + Names(rest);
    if name !in Names(jar[1..]) {
      SeqAssoc([jar[0].name], Names(jar[1..]), [name]);
    }
  }

  /** The reference for repeated assignment: the value of the last cookie of
      that name in `cs`, if any. */
  function LastValue(cs: seq<Cookie>, name: string): Option<string>
  {
    if |cs| == 0 then None
    else
      var later := LastValue(cs[1..], name);
      if later.Some? then later
      else if cs[0].name == name then Some(cs[0].value)
      else None
  }

  /** The reference for insertion order: the names of `names` that are neither
      in `existing` nor earlier in `names`, in order of first appearance. */
  function Fresh(names: seq<string>, existing: seq<string>): seq<string>
  {
    if |names| == 0 then []
    else if names[0] in existing then Fresh(names[1..], existing)
    else [names[0]] + Fresh(names[1..], existing + [names[0]])
  }

  /** Assigning the cookies of `cs` one after another, as both the loop of
      `list_to_dict` and the display `{**old, **new}` do: the names already in
      the jar keep their places, new names follow in order of first appearance,
      and every name takes the last value `cs` gives it. */
  function Merge(jar: seq<Cookie>, cs: seq<Cookie>): (r: seq<Cookie>)
    requires WellFormed(jar)
    ensures WellFormed(r)
    ensures Names(r) == Names(jar) + Fresh(Names(cs), Names(jar))
    ensures forall n :: Lookup(r, n) == if LastValue(cs, n).Some? then LastValue(cs, n) else Lookup(jar, n)
    decreases |cs|
  {
    if |cs| == 0 then jar
    else
      MergeStepNames(jar, cs);
      MergeStepLookup(jar, cs);
      Merge(Put(jar, cs[0].name, cs[0].value), cs[1..])
  }

  lemma {:induction false} MergeStepNames(jar: seq<Cookie>, cs: seq<Cookie>)
    requires WellFormed(jar) && |cs| > 0
    ensures var next := Names(Put(jar, cs[0].name, cs[0].value));
      next + Fresh(Names(cs[1..]), next) == Names(jar) + Fresh(Names(cs), Names(jar))
  {
    var existing, c, rest := Names(jar), cs[0].name, Names(cs[1..]);
    var ns := Names(cs);
    assert ns == [c] + rest;
    assert ns[0] == c && ns[1..] == rest;
    var next := Names(Put(jar, cs[0].name, cs[0].value));
    assert next == if c in existing then existing else existing + [c];
    if c in existing {
      assert Fresh(ns, existing) == Fresh(rest, existing);
    } else {
      assert Fresh(ns, existing) == [c] + Fresh(rest, existing + [c]);
      SeqAssoc(existing, [c], Fresh(rest, next));
    }
  }

  lemma {:induction false} MergeStepLookup(jar: seq<Cookie>, cs: seq<Cookie>)
    requires WellFormed(jar) && |cs| > 0
    ensures var next := Put(jar, cs[0].name, cs[0].value);
      forall n :: (if LastValue(cs[1..], n).Some? then LastValue(cs[1..], n) else Lookup(next, n))
        == (if LastValue(cs, n).Some? then LastValue(cs, n) else Lookup(jar, n))
  {
  }

  /** Assigning cookies with fresh, distinct names appends them. */
  lemma {:induction false} MergeFresh(jar: seq<Cookie>, cs: seq<Cookie>)
    requires WellFormed(jar) && WellFormed(cs)
    requires forall n :: n in Names(cs) ==> n !in Names(jar)
    ensures Merge(jar, cs) == jar + cs
    decreases |cs|
  {
    if |cs| > 0 {
      var c := cs[0];
      PutFresh(jar, c.name, c.value);
      var next := jar + [c];
      assert Names(next) == Names(jar) + [c.name];
      assert forall n :: n in Names(cs[1..]) ==> n !in Names(next);
      MergeFresh(next, cs[1..]);
      ConsTail(jar, cs);
    }
  }

  lemma {:induction false} PutUnfold(jar: seq<Cookie>, name: string, value: string)
    requires WellFormed(jar) && |jar| > 0 && jar[0].name != name
    ensures Put(jar, name, value) == [jar[0]] + Put(jar[1..], name, value)
  {
  }

  lemma {:induction false} PutFresh(jar: seq<Cookie>, name: string, value: string)
    requires WellFormed(jar)
    requires name !in Names(jar)
    ensures Put(jar, name, value) == jar + [Cookie(name, value)]
  {
    if |jar| > 0 {
      var t := jar[1..];
      assert name !in Names(t) && jar[0].name != name by {
        assert Names(jar) == [jar[0].name] + Names(t);
      }
      PutFresh(t, name, value);
      PutFreshStep(jar, name, value);
    }
  }

  lemma {:induction false} PutFreshStep(jar: seq<Cookie>, name: string, value: string)
    requires WellFormed(jar) && |jar| > 0 && jar[0].name != name
    requires Put(jar[1..], name, value) == jar[1..] + [Cookie(name, value)]
    ensures Put(jar, name, value) == jar + [Cookie(name, value)]
  {
    var c, t := Cookie(name, value), jar[1..];
    PutUnfold(jar, name, value);
    SeqAssoc([jar[0]], t, [c]);
    assert [jar[0]] + t == jar;
  }

  /** One fragment of `list_to_dict`: `frag.split('=')`, keeping parts 0 and 1,
      or nothing when the fragment holds no `=` (the IndexError the loop skips).
      The name is the text before the first `=`, the value the text between the
      first and the second `=` (or the end). */
  function ParsePair(frag: string): (r: Option<Cookie>)
    ensures r.None? <==> '=' !in frag
    ensures r.Some? ==>
      var c := r.value;
      var n := |c.name| + 1 + |c.value|;
      && '=' !in c.name && '=' !in c.value
      && n <= |frag| && frag[..n] == c.name + "=" + c.value
      && (n == |frag| || frag[n] == '=')
  {
    var parts := Split(frag, '=');
    if |parts| >= 2 then
      var tail := Join(parts[1..], '=');
      assert parts == [parts[0]] + parts[1..];
      assert frag == parts[0] + "=" + tail;
      JoinStartsWithFirst(parts[1..], '=');
      assert tail[..|parts[1]|] == parts[1];
      assert frag[..|parts[0]| + 1 + |parts[1]|] == parts[0] + "=" + parts[1];
      Some(Cookie(parts[0], parts[1]))
    else None
  }

  /** The cookies that the fragments yield, in order. */
  function Parsed(frags: seq<string>): (cs: seq<Cookie>)
    ensures forall c :: c in cs ==> exists i :: 0 <= i < |frags| && ParsePair(frags[i]) == Some(c)
  {
    if |frags| == 0 then []
    else
      var rest := Parsed(frags[1..]);
      assert forall c :: c in rest ==> exists i :: 1 <= i < |frags| && ParsePair(frags[i]) == Some(c);
      match ParsePair(frags[0])
      case Some(c) => [c] + rest
      case None => rest
  }

  /** `list_to_dict`: each fragment with an `=` assigns its name, later fragments
      overriding earlier ones, names ordered by first appearance. */
  function ListToDict(frags: seq<string>): (r: seq<Cookie>)
    ensures WellFormed(r)
    ensures forall n :: Lookup(r, n) == LastValue(Parsed(frags), n)
    ensures Names(r) == Fresh(Names(Parsed(frags)), [])
    ensures forall i :: 0 <= i < |r| ==> r[i] in Parsed(frags)
  {
    var r := Merge([], Parsed(frags));
    forall i | 0 <= i < |r|
      ensures r[i] in Parsed(frags)
    {
      LookupFindsEntry(r, i);
      LastValueIn(Parsed(frags), r[i].name);
    }
    r
  }

  lemma {:induction false} LastValueIn(cs: seq<Cookie>, name: string)
    ensures LastValue(cs, name).Some? ==> Cookie(name, LastValue(cs, name).value) in cs
  {
    if |cs| > 0 {
      LastValueIn(cs[1..], name);
    }
  }

  /** `cookie_string`: `name=value` for each cookie, joined with `;`. An empty
      jar gives the empty string; for a plain jar, splitting at `;` gives back
      exactly the fragments `name=value`, in the jar's order. */
  function CookieString(jar: seq<Cookie>): (s: string)
    ensures |jar| == 0 ==> s == ""
    ensures |jar| > 0 && SemicolonFree(jar) ==> Split(s, ';') == Rendered(jar)
  {
    RenderedSplit(jar);
    Join(Rendered(jar), ';')
  }

  /** A token with base64 padding, as `_login` stores it unparsed, still renders
      as one `name=value` piece of the cookie string. */
  lemma {:induction false} CookieStringOfPaddedToken(jar: seq<Cookie>)
    requires jar == [Cookie("auth_token", "abc==")]
    ensures Split(CookieString(jar), ';') == ["auth_token=abc=="]
  {
    assert SemicolonFree(jar);
    var piece := jar[0].name + "=" + jar[0].value;
    assert Rendered(jar)[0] == piece;
    assert piece == "auth_token=abc==";
    assert Rendered(jar) == [piece];
  }

  lemma {:induction false} RenderedSplit(jar: seq<Cookie>)
    ensures |jar| > 0 && SemicolonFree(jar) ==> Split(Join(Rendered(jar), ';'), ';') == Rendered(jar)
  {
    var parts := Rendered(jar);
    if |jar| > 0 && SemicolonFree(jar) {
      forall i | 0 <= i < |parts|
        ensures ';' !in parts[i]
      {
        assert parts[i] == jar[i].name + "=" + jar[i].value;
      }
      SplitJoin(parts, ';');
    }
  }

  function Rendered(cs: seq<Cookie>): seq<string>
  {
    seq(|cs|, i requires 0 <= i < |cs| => cs[i].name + "=" + cs[i].value)
  }

  /** In a dict, the last value of a name is its only value. */
  lemma {:induction false} LastValueOfDict(cs: seq<Cookie>, name: string)
    requires WellFormed(cs)
    ensures LastValue(cs, name) == Lookup(cs, name)
  {
    if |cs| > 0 {
      LastValueOfDict(cs[1..], name);
    }
  }

  /** `{**old, **new}` for two dicts: a name of `update` takes its value from
      `update`, every other name keeps its value from `jar`, and the names of
      `jar` keep their positions at the front. */
  lemma {:induction false} MergeDicts(jar: seq<Cookie>, update: seq<Cookie>)
    requires WellFormed(jar) && WellFormed(update)
    ensures |jar| <= |Merge(jar, update)|
    ensures Names(Merge(jar, update))[..|jar|] == Names(jar)
    ensures forall n ::
              Lookup(Merge(jar, update), n) == if n in Names(update) then Lookup(update, n) else Lookup(jar, n)
  {
    forall n
      ensures Lookup(Merge(jar, update), n) == if n in Names(update) then Lookup(update, n) else Lookup(jar, n)
    {
      LastValueOfDict(update, n);
    }
  }

  /** Two dicts with the same names in the same order and the same value for
      every name are the same dict. */
  lemma {:induction false} JarExtensionality(a: seq<Cookie>, b: seq<Cookie>)
    requires WellFormed(a) && WellFormed(b)
    requires Names(a) == Names(b)
    requires forall n :: Lookup(a, n) == Lookup(b, n)
    ensures a == b
    decreases |a|
  {
    if |a| > 0 {
      var n0 := a[0].name;
      assert Names(a)[0] == n0 && Names(b)[0] == b[0].name;
      assert Lookup(a, n0) == Some(a[0].value);
      assert Lookup(b, n0) == Some(b[0].value);
      assert Names(a[1..]) == Names(a)[1..] == Names(b)[1..] == Names(b[1..]);
      forall n
        ensures Lookup(a[1..], n) == Lookup(b[1..], n)
      {
        if n != n0 {
          assert Lookup(a, n) == Lookup(a[1..], n);
          assert Lookup(b, n) == Lookup(b[1..], n);
        }
      }
      JarExtensionality(a[1..], b[1..]);
      assert a == [a[0]] + a[1..];
      assert b == [b[0]] + b[1..];
    }
  }

  /** `Fresh` depends on the existing names only through membership. */
  lemma {:induction false} FreshMembers(names: seq<string>, x: seq<string>, y: seq<string>)
    requires forall n :: n in x <==> n in y
    ensures Fresh(names, x) == Fresh(names, y)
    decreases |names|
  {
    if |names| > 0 {
      var n0 := names[0];
      if n0 !in x {
        FreshMembers(names[1..], x + [n0], y + [n0]);
      } else {
        FreshMembers(names[1..], x, y);
      }
    }
  }

  /** Taking the fresh names twice is taking them once against both lists. */
  lemma {:induction false} FreshTwice(names: seq<string>, x: seq<string>, e: seq<string>)
    ensures Fresh(Fresh(names, x), e) == Fresh(names, x + e)
    decreases |names|
  {
    if |names| > 0 {
      var n0, rest := names[0], names[1..];
      if n0 in x {
        FreshTwice(rest, x, e);
      } else {
        var inner := Fresh(rest, x + [n0]);
        assert Fresh(names, x) == [n0] + inner;
        assert ([n0] + inner)[0] == n0 && ([n0] + inner)[1..] == inner;
        if n0 in e {
          assert Fresh(Fresh(names, x), e) == Fresh(inner, e);
          FreshTwice(rest, x + [n0], e);
          FreshMembers(rest, x + [n0] + e, x + e);
        } else {
          assert Fresh(Fresh(names, x), e) == [n0] + Fresh(inner, e + [n0]);
          FreshTwice(rest, x + [n0], e + [n0]);
          FreshMembers(rest, x + [n0] + (e + [n0]), x + e + [n0]);
        }
      }
    }
  }

  /** Merging the dict that a run of assignments builds is making those
      assignments directly, repeated names included. */
  lemma {:induction false} MergeOfDict(jar: seq<Cookie>, cs: seq<Cookie>)
    requires WellFormed(jar)
    ensures Merge(jar, Merge([], cs)) == Merge(jar, cs)
  {
    var a, b := Merge(jar, Merge([], cs)), Merge(jar, cs);
    MergeOfDictNames(jar, cs);
    forall n
      ensures Lookup(a, n) == Lookup(b, n)
    {
      MergeOfDictLookup(jar, cs, n);
    }
    JarExtensionality(a, b);
  }

  lemma {:induction false} MergeOfDictNames(jar: seq<Cookie>, cs: seq<Cookie>)
    requires WellFormed(jar)
    ensures Names(Merge(jar, Merge([], cs))) == Names(Merge(jar, cs))
  {
    var d := Merge([], cs);
    assert Names(d) == Fresh(Names(cs), []) by {
      assert Names([]) == [];
      assert [] + Fresh(Names(cs), []) == Fresh(Names(cs), []);
    }
    FreshTwice(Names(cs), [], Names(jar));
    assert [] + Names(jar) == Names(jar);
  }

  lemma {:induction false} MergeOfDictLookup(jar: seq<Cookie>, cs: seq<Cookie>, n: string)
    requires WellFormed(jar)
    ensures Lookup(Merge(jar, Merge([], cs)), n) == Lookup(Merge(jar, cs), n)
  {
    LastValueOfDict(Merge([], cs), n);
  }

  /** The fragments `name=value` of plain cookies, read by `list_to_dict`, give
      the dict those cookies build one after another. */
  lemma {:induction false} ListToDictOfRendered(cs: seq<Cookie>)
    requires Plain(cs)
    ensures ListToDict(Rendered(cs)) == Merge([], cs)
  {
    ParsedRendered(cs);
  }

  /** `load_string_cookie`: parse `s` split on `;` and merge it over the jar. */
  function LoadStringCookie(jar: seq<Cookie>, s: string): (r: seq<Cookie>)
    requires WellFormed(jar)
    ensures WellFormed(r)
    ensures |jar| <= |r| && Names(r)[..|jar|] == Names(jar)
    ensures var parsed := ListToDict(Split(s, ';'));
      forall n :: Lookup(r, n) == if n in Names(parsed) then Lookup(parsed, n) else Lookup(jar, n)
  {
    var parsed := ListToDict(Split(s, ';'));
    MergeDicts(jar, parsed);
    Merge(jar, parsed)
  }

  /** Assigning one more cookie after a run of assignments. */
  lemma {:induction false} MergeSnoc(jar: seq<Cookie>, cs: seq<Cookie>, c: Cookie)
    requires WellFormed(jar)
    ensures Merge(jar, cs + [c]) == Put(Merge(jar, cs), c.name, c.value)
    decreases |cs|
  {
    if |cs| == 0 {
      assert cs + [c] == [c];
    } else {
      assert (cs + [c])[1..] == cs[1..] + [c];
      MergeSnoc(Put(jar, cs[0].name, cs[0].value), cs[1..], c);
    }
  }

  lemma {:induction false} ParsedAppend(a: seq<string>, b: seq<string>)
    ensures Parsed(a + b) == Parsed(a) + Parsed(b)
  {
    if |a| == 0 {
      assert a + b == b;
    } else {
      assert (a + b)[1..] == a[1..] + b;
      ParsedAppend(a[1..], b);
    }
  }

  /** One turn of the loop in `list_to_dict`: a fragment without `=` (the empty
      one included) is skipped, any other assigns its name, overwriting a value
      an earlier fragment gave. */
  lemma {:induction false} ListToDictStep(frags: seq<string>, frag: string)
    ensures ListToDict(frags + [frag]) ==
      match ParsePair(frag)
      case None => ListToDict(frags)
      case Some(c) => Put(ListToDict(frags), c.name, c.value)
  {
    ParsedAppend(frags, [frag]);
    assert Parsed([frag]) == if ParsePair(frag).Some? then [ParsePair(frag).value] else [];
    match ParsePair(frag)
    case None =>
      assert Parsed(frags + [frag]) == Parsed(frags);
    case Some(c) =>
      MergeSnoc([], Parsed(frags), c);
  }

  /** A fragment without `=` contributes nothing wherever it stands. */
  lemma {:induction false} ListToDictSkipsPlainFragment(before: seq<string>, frag: string, after: seq<string>)
    requires '=' !in frag
    ensures ListToDict(before + [frag] + after) == ListToDict(before + after)
  {
    ParsedSkipsPlainFragment(before, frag, after);
  }

  lemma {:induction false} ParsedSkipsPlainFragment(before: seq<string>, frag: string, after: seq<string>)
    requires '=' !in frag
    ensures Parsed(before + [frag] + after) == Parsed(before + after)
  {
    assert Parsed([frag]) == [] by {
      assert ParsePair(frag).None?;
      assert [frag][1..] == [];
    }
    ParsedAppend(before + [frag], after);
    ParsedAppend(before, [frag]);
    ParsedAppend(before, after);
  }

  /** No `;` in any name or value, so each rendered pair is one `;`-piece. */
  predicate SemicolonFree(jar: seq<Cookie>)
  {
    forall i :: 0 <= i < |jar| ==> ';' !in jar[i].name && ';' !in jar[i].value
  }

  /** No `;` and no `=` in any name or value. */
  predicate Plain(jar: seq<Cookie>)
  {
    forall i :: 0 <= i < |jar| ==>
      ';' !in jar[i].name && '=' !in jar[i].name && ';' !in jar[i].value && '=' !in jar[i].value
  }

  lemma {:induction false} ParseRendered(c: Cookie)
    requires '=' !in c.name && '=' !in c.value
    ensures ParsePair(c.name + "=" + c.value) == Some(c)
  {
    assert Join([c.name, c.value], '=') == c.name + "=" + c.value;
    SplitJoin([c.name, c.value], '=');
  }

  /** The fragments `name=value` of a plain jar parse back to its cookies. */
  lemma {:induction false} ParsedRendered(jar: seq<Cookie>)
    requires Plain(jar)
    ensures Parsed(Rendered(jar)) == jar
  {
    if |jar| > 0 {
      assert Rendered(jar)[1..] == Rendered(jar[1..]);
      ParseRendered(jar[0]);
      ParsedRendered(jar[1..]);
      assert [jar[0]] + jar[1..] == jar;
    }
  }

  /** The round trip the program promises ("the inverse of cookie_string"):
      loading the serialised jar into an empty jar gives back the same cookies in
      the same order, provided no name or value holds `;` or `=`. */
  lemma {:induction false} CookieStringRoundTrip(jar: seq<Cookie>)
    requires WellFormed(jar) && Plain(jar)
    ensures LoadStringCookie([], CookieString(jar)) == jar
  {
    var s := CookieString(jar);
    if |jar| == 0 {
      assert Split(s, ';') == [""];
      assert Parsed([""]) == [];
      assert ListToDict([""]) == [];
    } else {
      assert SemicolonFree(jar);
      assert Split(s, ';') == Rendered(jar);
      ParsedRendered(jar);
      MergeFresh([], jar);
      assert [] + jar == jar;
      assert ListToDict(Split(s, ';')) == jar;
    }
    assert LoadStringCookie([], s) == Merge([], jar);
    MergeFresh([], jar);
    assert [] + jar == jar;
  }

  /** `Cookie(cookie_string)`: a jar loaded from the string when one is given and
      non-empty, else an empty jar; skipping the empty string changes nothing. */
  function NewJar(s: Option<string>): (r: seq<Cookie>)
    ensures WellFormed(r)
    ensures s.None? || s == Some("") ==> r == []
    ensures r == LoadStringCookie([], s.GetOr(""))
  {
    if s.Some? && s.value != "" then LoadStringCookie([], s.value)
    else
      LoadEmptyString();
      []
  }

  lemma {:induction false} LoadEmptyString()
    ensures LoadStringCookie([], "") == []
  {
    assert Split("", ';') == [""];
    assert Parsed([""]) == [];
    assert ListToDict([""]) == [];
  }
}

=== FILE: filename.dfy ===
/** The file-name sanitiser applied to a post title before it is written to disk
    (afd_crawler.py `check_filename`). */
module Filename {

  /** Python's `s.replace(c, by)` for a one-character pattern: every `c` becomes `by`. */
  function Replace(s: string, c: char, repl: string): (r: string)
    ensures c !in repl ==> c !in r
    ensures |repl| <= 1 ==> |r| <= |s|
  {
    if |s| == 0 then ""
    else (if s[0] == c then repl else [s[0]]) + Replace(s[1..], c, repl)
  }

  const Backspace: char := '\U{0008}'
  const FormFeed: char := '\U{000C}'
  const LeftAngle: char := '\U{300A}'   // 《
  const RightAngle: char := '\U{300B}'  // 》

  /** The replacement chain, in the program's order. */
  function CheckFilename(name: string): (r: string)
    ensures |r| <= |name|
  {
    var s1 := Replace(name, '\\', "");
    var s2 := Replace(s1, '/', "");
    var s3 := Replace(s2, '*', "x");
    var s4 := Replace(s3, '?', "");
    var s5 := Replace(s4, '<', [LeftAngle]);
    var s6 := Replace(s5, '>', [RightAngle]);
    var s7 := Replace(s6, '|', "_");
    var s8 := Replace(s7, '\n', "");
    var s9 := Replace(s8, Backspace, "");
    var s10 := Replace(s9, FormFeed, "");
    var s11 := Replace(s10, '\t', "");
    Replace(s11, '\r', "")
  }

  /** Characters the sanitiser drops. */
  predicate Dropped(c: char) {
    c == '\\' || c == '/' || c == '?' || c == '\n' || c == Backspace
    || c == FormFeed || c == '\t' || c == '\r'
  }

  /** Characters the sanitiser rewrites to a look-alike. */
  predicate Substituted(c: char) {
    c == '*' || c == '<' || c == '>' || c == '|'
  }

  /** Characters that never appear in a sanitised name. */
  predicate Forbidden(c: char) {
    Dropped(c) || Substituted(c)
  }

  /** What the sanitiser makes of one character, read off the replacement table. */
  function CharImage(c: char): (r: string)
    ensures Dropped(c) <==> |r| == 0
    ensures !Forbidden(c) <==> r == [c]
    ensures forall i :: 0 <= i < |r| ==> !Forbidden(r[i])
  {
    if Dropped(c) then ""
    else if c == '*' then "x"
    else if c == '<' then [LeftAngle]
    else if c == '>' then [RightAngle]
    else if c == '|' then "_"
    else [c]
  }

  /** The reference: the sanitiser as a per-character map. */
  function MapChars(s: string): (r: string)
  {
    if |s| == 0 then "" else CharImage(s[0]) + MapChars(s[1..])
  }

  /** Number of characters of `s` the sanitiser drops. */
  function DroppedCount(s: string): nat
  {
    if |s| == 0 then 0 else (if Dropped(s[0]) then 1 else 0) + DroppedCount(s[1..])
  }

  lemma {:induction false} ReplaceAppend(a: string, b: string, c: char, repl: string)
    ensures Replace(a + b, c, repl) == Replace(a, c, repl) + Replace(b, c, repl)
  {
    if |a| == 0 {
      assert a + b == b;
    } else {
      assert (a + b)[1..] == a[1..] + b;
      ReplaceAppend(a[1..], b, c, repl);
    }
  }

  lemma {:induction false} ReplaceOne(d: char, c: char, repl: string)
    ensures Replace([d], c, repl) == if d == c then repl else [d]
  {
    assert Replace([d], c, repl) == (if d == c then repl else [d]) + Replace([], c, repl);
  }

  lemma {:induction false} CheckFilenameAppend(a: string, b: string)
    ensures CheckFilename(a + b) == CheckFilename(a) + CheckFilename(b)
  {
    var a1, b1 := Replace(a, '\\', ""), Replace(b, '\\', "");
    ReplaceAppend(a, b, '\\', "");
    var a2, b2 := Replace(a1, '/', ""), Replace(b1, '/', "");
    ReplaceAppend(a1, b1, '/', "");
    var a3, b3 := Replace(a2, '*', "x"), Replace(b2, '*', "x");
    ReplaceAppend(a2, b2, '*', "x");
    var a4, b4 := Replace(a3, '?', ""), Replace(b3, '?', "");
    ReplaceAppend(a3, b3, '?', "");
    var a5, b5 := Replace(a4, '<', [LeftAngle]), Replace(b4, '<', [LeftAngle]);
    ReplaceAppend(a4, b4, '<', [LeftAngle]);
    var a6, b6 := Replace(a5, '>', [RightAngle]), Replace(b5, '>', [RightAngle]);
    ReplaceAppend(a5, b5, '>', [RightAngle]);
    var a7, b7 := Replace(a6, '|', "_"), Replace(b6, '|', "_");
    ReplaceAppend(a6, b6, '|', "_");
    var a8, b8 := Replace(a7, '\n', ""), Replace(b7, '\n', "");
    ReplaceAppend(a7, b7, '\n', "");
    var a9, b9 := Replace(a8, Backspace, ""), Replace(b8, Backspace, "");
    ReplaceAppend(a8, b8, Backspace, "");
    var a10, b10 := Replace(a9, FormFeed, ""), Replace(b9, FormFeed, "");
    ReplaceAppend(a9, b9, FormFeed, "");
    var a11, b11 := Replace(a10, '\t', ""), Replace(b10, '\t', "");
    ReplaceAppend(a10, b10, '\t', "");
    ReplaceAppend(a11, b11, '\r', "");
  }

  /** On one character the chain agrees with the table: no replacement output is
      itself a pattern of a later replacement. */
  lemma {:induction false} CheckFilenameOneChar(c: char)
    ensures CheckFilename([c]) == CharImage(c)
  {
    var s4 := Replace(Replace(Replace(Replace([c], '\\', ""), '/', ""), '*', "x"), '?', "");
    var s8 := Replace(Replace(Replace(Replace(s4, '<', [LeftAngle]), '>', [RightAngle]), '|', "_"), '\n', "");
    OneCharFirstFour(c, s4);
    OneCharNextFour(c, s4, s8);
    StagesMakeImage(c);
    OneCharLastFour(s8);
  }

  /** One character after the first four replacements. */
  ghost function AfterFour(c: char): string
  {
    if c == '\\' || c == '/' || c == '?' then "" else if c == '*' then "x" else [c]
  }

  /** One character after the first eight replacements. */
  ghost function AfterEight(c: char): string
  {
    if AfterFour(c) != [c] then AfterFour(c)
    else if c == '<' then [LeftAngle]
    else if c == '>' then [RightAngle]
    else if c == '|' then "_"
    else if c == '\n' then ""
    else [c]
  }

  lemma {:induction false} OneCharFirstFour(c: char, s4: string)
    requires s4 == Replace(Replace(Replace(Replace([c], '\\', ""), '/', ""), '*', "x"), '?', "")
    ensures s4 == AfterFour(c)
  {
    var s0: string := [c];
    ReplaceEmptyOrOne(s0, '\\', "");
    var s1 := Replace(s0, '\\', "");
    ReplaceEmptyOrOne(s1, '/', "");
    var s2 := Replace(s1, '/', "");
    ReplaceEmptyOrOne(s2, '*', "x");
    var s3 := Replace(s2, '*', "x");
    ReplaceEmptyOrOne(s3, '?', "");
  }

  lemma {:induction false} OneCharNextFour(c: char, s4: string, s8: string)
    requires s4 == AfterFour(c)
    requires s8 == Replace(Replace(Replace(Replace(s4, '<', [LeftAngle]), '>', [RightAngle]), '|', "_"), '\n', "")
    ensures s8 == AfterEight(c)
  {
    ReplaceEmptyOrOne(s4, '<', [LeftAngle]);
    var s5 := Replace(s4, '<', [LeftAngle]);
    ReplaceEmptyOrOne(s5, '>', [RightAngle]);
    var s6 := Replace(s5, '>', [RightAngle]);
    ReplaceEmptyOrOne(s6, '|', "_");
    var s7 := Replace(s6, '|', "_");
    ReplaceEmptyOrOne(s7, '\n', "");
  }

  /** A lone control character removed, as the last four replacements do. */
  ghost function DropControl(s: string): string
  {
    if |s| == 1 && (s[0] == Backspace || s[0] == FormFeed || s[0] == '\t' || s[0] == '\r') then ""
    else s
  }

  lemma {:induction false} OneCharLastFour(s8: string)
    requires |s8| <= 1
    ensures Replace(Replace(Replace(Replace(s8, Backspace, ""), FormFeed, ""), '\t', ""), '\r', "") == DropControl(s8)
  {
    ReplaceEmptyOrOne(s8, Backspace, "");
    var s9 := Replace(s8, Backspace, "");
    ReplaceEmptyOrOne(s9, FormFeed, "");
    var s10 := Replace(s9, FormFeed, "");
    ReplaceEmptyOrOne(s10, '\t', "");
    var s11 := Replace(s10, '\t', "");
    ReplaceEmptyOrOne(s11, '\r', "");
  }

  lemma {:induction false} StagesMakeImage(c: char)
    ensures |AfterEight(c)| <= 1
    ensures DropControl(AfterEight(c)) == CharImage(c)
  {
  }

  lemma {:induction false} ReplaceEmptyOrOne(s: string, c: char, repl: string)
    requires |s| <= 1
    ensures Replace(s, c, repl) == if |s| == 0 then "" else if s[0] == c then repl else s
  {
    if |s| == 1 {
      ReplaceOne(s[0], c, repl);
      assert s == [s[0]];
    }
  }

  /** The chain of replacements is the per-character map of the table. */
  lemma {:induction false} CheckFilenameIsCharMap(name: string)
    ensures CheckFilename(name) == MapChars(name)
  {
    if |name| == 0 {
      assert CheckFilename(name) == "";
    } else {
      assert name == [name[0]] + name[1..];
      CheckFilenameAppend([name[0]], name[1..]);
      CheckFilenameOneChar(name[0]);
      CheckFilenameIsCharMap(name[1..]);
    }
  }

  lemma {:induction false} MapCharsClean(s: string)
    ensures forall i :: 0 <= i < |MapChars(s)| ==> !Forbidden(MapChars(s)[i])
    ensures |MapChars(s)| + DroppedCount(s) == |s|
  {
    if |s| > 0 {
      MapCharsClean(s[1..]);
      var r := MapChars(s);
      var h := CharImage(s[0]);
      forall i | 0 <= i < |r|
        ensures !Forbidden(r[i])
      {
        if i >= |h| {
          assert r[i] == MapChars(s[1..])[i - |h|];
        }
      }
    }
  }

  lemma {:induction false} MapCharsIdentity(s: string)
    requires forall i :: 0 <= i < |s| ==> !Forbidden(s[i])
    ensures MapChars(s) == s
  {
    if |s| > 0 {
      MapCharsIdentity(s[1..]);
      assert s == [s[0]] + s[1..];
    }
  }

  /** No sanitised name holds a character the program strips or rewrites. */
  lemma {:induction false} CheckFilenameClean(name: string)
    ensures forall i :: 0 <= i < |CheckFilename(name)| ==> !Forbidden(CheckFilename(name)[i])
  {
    CheckFilenameIsCharMap(name);
    MapCharsClean(name);
  }

  /** Each dropped character shortens the name by one; nothing else changes the length. */
  lemma {:induction false} CheckFilenameLength(name: string)
    ensures |CheckFilename(name)| + DroppedCount(name) == |name|
  {
    CheckFilenameIsCharMap(name);
    MapCharsClean(name);
  }

  /** A name free of the listed characters comes through unchanged. */
  lemma {:induction false} CheckFilenameKeepsCleanName(name: string)
    requires forall i :: 0 <= i < |name| ==> !Forbidden(name[i])
    ensures CheckFilename(name) == name
  {
    CheckFilenameIsCharMap(name);
    MapCharsIdentity(name);
  }

  /** Sanitising twice is sanitising once. */
  lemma {:induction false} CheckFilenameIdempotent(name: string)
    ensures CheckFilename(CheckFilename(name)) == CheckFilename(name)
  {
    CheckFilenameClean(name);
    CheckFilenameKeepsCleanName(CheckFilename(name));
  }

  /** Without characters to drop, the result has the input's length and position
      `i` carries the image of input character `i`: every kept character stays in
      place and each substituted one becomes exactly one look-alike. */
  lemma {:induction false} CheckFilenamePositionwise(name: string)
    requires forall i :: 0 <= i < |name| ==> !Dropped(name[i])
    ensures |CheckFilename(name)| == |name|
    ensures forall i :: 0 <= i < |name| ==> [CheckFilename(name)[i]] == CharImage(name[i])
  {
    CheckFilenameIsCharMap(name);
    MapCharsPositionwise(name);
  }

  lemma {:induction false} MapCharsPositionwise(s: string)
    requires forall i :: 0 <= i < |s| ==> !Dropped(s[i])
    ensures |MapChars(s)| == |s|
    ensures forall i :: 0 <= i < |s| ==> [MapChars(s)[i]] == CharImage(s[i])
  {
    if |s| > 0 {
      MapCharsPositionwise(s[1..]);
      var h := CharImage(s[0]);
      assert |h| == 1;
      forall i | 0 <= i < |s|
        ensures [MapChars(s)[i]] == CharImage(s[i])
      {
        if i > 0 {
          assert MapChars(s)[i] == MapChars(s[1..])[i - 1];
          assert s[i] == s[1..][i - 1];
        }
      }
    }
  }

  /** The name `save_to_file` writes: the sanitised title with the `.md` suffix. */
  function ExportName(title: string): (r: string)
    ensures |r| >= 3 && r[|r| - 3..] == ".md"
    ensures forall i :: 0 <= i < |r| ==> r[i] != '/' && r[i] != '\\'
  {
    CheckFilenameClean(title);
    CheckFilename(title) + ".md"
  }
}

=== FILE: progress.dfy ===
/** The progress file `finished.txt`: one finished article id per line,
    appended to by the saver and read back, deduplicated, by the loader. */
module Progress {
  import opened Wrappers
  import opened Text
  import opened Seqs

  /** A file that is empty or whose last character ends a line. */
  predicate Terminated(s: string)
  {
    |s| == 0 || s[|s| - 1] == '\n'
  }

  /** Text-mode reading translates `\r\n` and a lone `\r` into `\n`. */
  function Universal(s: string): (r: string)
    ensures '\r' !in r
    ensures |r| <= |s|
    ensures '\r' !in s ==> r == s
    decreases |s|
  {
    if |s| == 0 then ""
    else if s[0] == '\r' then
      if |s| >= 2 && s[1] == '\n' then ['\n'] + Universal(s[2..])
      else ['\n'] + Universal(s[1..])
    else [s[0]] + Universal(s[1..])
  }

  /** The strings of `lines`, one after another. */
  function Concat(lines: seq<string>): string
  {
    if |lines| == 0 then "" else lines[0] + Concat(lines[1..])
  }

  /** `readlines()`: the text cut after every `\n`, so that the lines put back
      together give the text; see `ReadLinesShape` for what each line holds. */
  function ReadLines(s: string): (lines: seq<string>)
    ensures Concat(lines) == s
    decreases |s|
  {
    if |s| == 0 then []
    else
      var h := Head(s, '\n');
      if |h| == |s| then
        assert Concat([s]) == s + "";
        [s]
      else
        var rest := ReadLines(s[|h| + 1..]);
        assert s[..|h| + 1] + s[|h| + 1..] == s;
        [s[..|h| + 1]] + rest
  }

  /** A line as `readlines()` returns it: not empty, with `\n` at most at its end. */
  predicate Line(l: string)
  {
    |l| > 0 && '\n' !in l[..|l| - 1]
  }

  /** Every piece `readlines()` returns is a line, holding no character the text lacks. */
  lemma {:induction false} ReadLinesShape(s: string)
    ensures forall i :: 0 <= i < |ReadLines(s)| ==> Line(ReadLines(s)[i])
    ensures '\r' !in s ==> forall i :: 0 <= i < |ReadLines(s)| ==> '\r' !in ReadLines(s)[i]
    decreases |s|
  {
    if |s| > 0 {
      var p := Head(s, '\n');
      if |p| == |s| {
        assert ReadLines(s) == [s];
        assert s[..|s| - 1] == p[..|s| - 1];
      } else {
        var line := p + "\n";
        var tail := s[|p| + 1..];
        var rest := ReadLines(tail);
        assert ReadLines(s) == [line] + rest by {
          assert s == p + "\n" + tail;
          ReadLinesStep(s, p, tail);
        }
        assert Line(line) by {
          assert line[..|line| - 1] == p;
        }
        assert '\r' !in s ==> '\r' !in line && '\r' !in tail by {
          assert line == s[..|p| + 1];
        }
        ReadLinesShape(tail);
        LinesCons(line, rest, '\r' !in s);
      }
    }
  }

  /** A line `readlines()` cut off: it ends in `\n`. */
  predicate Ended(l: string)
  {
    |l| > 0 && l[|l| - 1] == '\n'
  }

  /** Every line but the last ends in `\n`: `readlines()` cuts only after a
      line feed, so with `ReadLinesShape` and the contract of `ReadLines` this
      determines the lines of a text. */
  lemma {:induction false} ReadLinesBreaks(s: string)
    ensures forall i :: 0 <= i < |ReadLines(s)| - 1 ==> Ended(ReadLines(s)[i])
    decreases |s|
  {
    if |s| > 0 {
      var p := Head(s, '\n');
      if |p| < |s| {
        var line := p + "\n";
        var tail := s[|p| + 1..];
        assert ReadLines(s) == [line] + ReadLines(tail) by {
          assert s == p + "\n" + tail;
          ReadLinesStep(s, p, tail);
        }
        ReadLinesBreaks(tail);
        EndedCons(line, ReadLines(tail));
      }
    }
  }

  lemma {:induction false} EndedCons(line: string, rest: seq<string>)
    requires Ended(line)
    requires forall i :: 0 <= i < |rest| - 1 ==> Ended(rest[i])
    ensures forall i :: 0 <= i < |[line] + rest| - 1 ==> Ended(([line] + rest)[i])
  {
    var lines := [line] + rest;
    forall i | 0 <= i < |lines| - 1
      ensures Ended(lines[i])
    {
      if i > 0 {
        assert lines[i] == rest[i - 1];
      }
    }
  }

  lemma {:induction false} LinesCons(line: string, rest: seq<string>, clean: bool)
    requires Line(line) && (clean ==> '\r' !in line)
    requires forall i :: 0 <= i < |rest| ==> Line(rest[i]) && (clean ==> '\r' !in rest[i])
    ensures forall i :: 0 <= i < |[line] + rest| ==> Line(([line] + rest)[i]) && (clean ==> '\r' !in ([line] + rest)[i])
  {
    var lines := [line] + rest;
    forall i | 0 <= i < |lines|
      ensures Line(lines[i]) && (clean ==> '\r' !in lines[i])
    {
      if i > 0 {
        assert lines[i] == rest[i - 1];
      }
    }
  }

  /** How many `\n` the line starts with. */
  function Leading(s: string): (d: nat)
    ensures d <= |s|
    ensures forall i :: 0 <= i < d ==> s[i] == '\n'
    ensures d == |s| || s[d] != '\n'
    decreases |s|
  {
    if |s| > 0 && s[0] == '\n' then 1 + Leading(s[1..]) else 0
  }

  /** `line.strip('\n')`: the line with its leading and trailing `\n`
      removed, and nothing else: the result is the slice of the line that
      starts after its leading `\n`, does not end with `\n`, and is followed
      by nothing but `\n`. */
  function Strip(line: string): (r: string)
    ensures |r| == 0 || (r[0] != '\n' && r[|r| - 1] != '\n')
    ensures '\n' !in line ==> r == line
    ensures var d := Leading(line);
      && d + |r| <= |line| && r == line[d..d + |r|]
      && forall i :: d + |r| <= i < |line| ==> line[i] == '\n'
  {
    var d := Leading(line);
    var l := line[d..];
    var r := TrimRight(l);
    assert |r| > 0 ==> r[0] == l[0] == line[d];
    forall i | d + |r| <= i < |line|
      ensures line[i] == '\n'
    {
      assert line[i] == l[i - d];
    }
    r
  }

  /** Trailing `\n` removed: a prefix of `s`, everything after it `\n`. */
  function TrimRight(s: string): (r: string)
    ensures |r| == 0 || r[|r| - 1] != '\n'
    ensures |r| <= |s| && r == s[..|r|]
    ensures forall i :: |r| <= i < |s| ==> s[i] == '\n'
    ensures '\n' !in s ==> r == s
    decreases |s|
  {
    if |s| > 0 && s[|s| - 1] == '\n' then TrimRight(s[..|s| - 1]) else s
  }

  /** The stripped lines that are not empty, in file order. */
  function Ids(lines: seq<string>): (ids: seq<string>)
    ensures forall i :: 0 <= i < |ids| ==> ids[i] != ""
  {
    if |lines| == 0 then []
    else
      var id := Strip(lines[0]);
      if id == "" then Ids(lines[1..]) else [id] + Ids(lines[1..])
  }

  /** `_load_finish_article`: the set of ids in the file; an absent file gives none. */
  function LoadIds(file: Option<string>): (ids: set<string>)
    ensures forall id :: id in ids ==> id != "" && '\n' !in id && '\r' !in id
  {
    match file
    case None => {}
    case Some(s) =>
      var text := Universal(s);
      var lines := ReadLines(text);
      ReadLinesShape(text);
      IdsClean(lines);
      set id | id in Ids(lines)
  }

  /** What `_save_finish_article_id_to_file` writes: each id followed by `\n`. */
  function Records(ids: seq<string>): (s: string)
    ensures Terminated(s)
  {
    if |ids| == 0 then "" else ids[0] + "\n" + Records(ids[1..])
  }

  /** The file after the ids are appended; opening with `a+` creates an absent file. */
  function Save(file: Option<string>, ids: seq<string>): (s: string)
    ensures Terminated(file.GetOr("")) ==> Terminated(s)
    ensures |s| == |file.GetOr("")| + |Records(ids)|
    ensures s[..|file.GetOr("")|] == file.GetOr("")
  {
    file.GetOr("") + Records(ids)
  }

  /** An id the saver can write and the loader will read back unchanged. */
  predicate Recordable(id: string)
  {
    id != "" && '\n' !in id && '\r' !in id
  }

  /** Loading after a save yields the ids that were there plus the saved ones,
      provided the file ended on a line break and each id is recordable. */
  lemma {:induction false} LoadAfterSave(file: Option<string>, ids: seq<string>)
    requires Terminated(file.GetOr(""))
    requires forall id :: id in ids ==> Recordable(id)
    ensures LoadIds(Some(Save(file, ids))) == LoadIds(file) + set id | id in ids
  {
    var prior := file.GetOr("");
    var before := Ids(ReadLines(Universal(prior)));
    IdsAfterSave(prior, ids);
    ElementsOfAppend(before, ids);
    if file.None? {
      assert Universal(prior) == "";
      assert before == [];
    }
  }

  /** The id sequence read from a saved file: what was read before, then the batch. */
  lemma {:induction false} IdsAfterSave(prior: string, ids: seq<string>)
    requires Terminated(prior)
    requires forall id :: id in ids ==> Recordable(id)
    ensures Ids(ReadLines(Universal(prior + Records(ids)))) == Ids(ReadLines(Universal(prior))) + ids
  {
    var recs := Records(ids);
    var u := Universal(prior);
    AllRecordableOf(ids);
    assert Universal(prior + recs) == u + recs by {
      UniversalAppend(prior, recs);
      UniversalPlain(recs, ids);
    }
    assert ReadLines(u + recs) == ReadLines(u) + RecordLines(ids) by {
      UniversalTerminated(prior);
      ReadLinesAppend(u, recs);
      ReadLinesOfRecords(ids);
    }
    IdsAppend(ReadLines(u), RecordLines(ids));
    IdsOfRecordLines(ids);
  }

  /** Two saves in a row: the loader sees the union of both batches. */
  lemma {:induction false} SavedTwice(first: seq<string>, second: seq<string>)
    requires first == ["x", "y"] && second == ["y", "z"]
    ensures LoadIds(Some(Save(Some(Save(None, first)), second))) == {"x", "y", "z"}
  {
    var once := Save(None, first);
    assert LoadIds(Some(once)) == {"x", "y"} by {
      BatchRecordable(first);
      LoadAfterSave(None, first);
      ElementsOfPair(first, "x", "y");
    }
    assert LoadIds(Some(Save(Some(once), second))) == {"x", "y"} + {"y", "z"} by {
      BatchRecordable(second);
      LoadAfterSave(Some(once), second);
      ElementsOfPair(second, "y", "z");
    }
  }

  lemma {:induction false} BatchRecordable(ids: seq<string>)
    requires ids == ["x", "y"] || ids == ["y", "z"]
    ensures forall id :: id in ids ==> Recordable(id)
  {
  }

  lemma {:induction false} IdsClean(lines: seq<string>)
    requires forall i :: 0 <= i < |lines| ==> Line(lines[i]) && '\r' !in lines[i]
    ensures forall i :: 0 <= i < |Ids(lines)| ==> '\n' !in Ids(lines)[i] && '\r' !in Ids(lines)[i]
  {
    if |lines| > 0 {
      var rest := lines[1..];
      assert forall i :: 0 <= i < |rest| ==> Line(rest[i]) && '\r' !in rest[i] by {
        forall i | 0 <= i < |rest|
          ensures Line(rest[i]) && '\r' !in rest[i]
        {
          assert rest[i] == lines[i + 1];
        }
      }
      IdsClean(rest);
      var id := Strip(lines[0]);
      StripLineClean(lines[0]);
      if id != "" {
        CleanCons(id, Ids(rest));
      }
    }
  }

  lemma {:induction false} CleanCons(id: string, ids: seq<string>)
    requires '\n' !in id && '\r' !in id
    requires forall i :: 0 <= i < |ids| ==> '\n' !in ids[i] && '\r' !in ids[i]
    ensures forall i :: 0 <= i < |[id] + ids| ==> '\n' !in ([id] + ids)[i] && '\r' !in ([id] + ids)[i]
  {
    var all := [id] + ids;
    forall i | 0 <= i < |all|
      ensures '\n' !in all[i] && '\r' !in all[i]
    {
      if i > 0 {
        assert all[i] == ids[i - 1];
      }
    }
  }

  /** Stripping a line leaves neither a line break nor a character the line lacks. */
  lemma {:induction false} StripLineClean(line: string)
    requires Line(line) && '\r' !in line
    ensures '\n' !in Strip(line) && '\r' !in Strip(line)
  {
    var r := Strip(line);
    var d := Leading(line);
    forall k | 0 <= k < |r|
      ensures r[k] != '\n' && r[k] != '\r'
    {
      assert r[k] == line[d + k];
      if d + k < |line| - 1 {
        assert line[..|line| - 1][d + k] == line[d + k];
      } else {
        assert k == |r| - 1;
      }
    }
  }

  lemma {:induction false} UniversalAppend(a: string, b: string)
    requires |a| == 0 || a[|a| - 1] != '\r'
    ensures Universal(a + b) == Universal(a) + Universal(b)
    decreases |a|
  {
    if |a| == 0 {
      assert a + b == b;
    } else {
      var k := if a[0] == '\r' && a[1] == '\n' then 2 else 1;
      var c := if a[0] == '\r' then '\n' else a[0];
      UniversalStep(a, k, c);
      UniversalStep(a + b, k, c);
      DropAppend(a, b, k);
      var tail := a[k..];
      assert |tail| == 0 || tail[|tail| - 1] == a[|a| - 1];
      UniversalAppend(tail, b);
      SeqAssoc([c], Universal(tail), Universal(b));
    }
  }

  /** One step of the translation: the first `k` characters become `c`. */
  lemma {:induction false} UniversalStep(s: string, k: nat, c: char)
    requires 1 <= k <= |s|
    requires k == (if s[0] == '\r' && |s| >= 2 && s[1] == '\n' then 2 else 1)
    requires c == (if s[0] == '\r' then '\n' else s[0])
    ensures Universal(s) == [c] + Universal(s[k..])
  {
  }

  /** After `\r`-free text, a `\r\n` pair reads as one `\n`. */
  lemma {:induction false} UniversalCrLf(a: string, b: string)
    requires '\r' !in a
    ensures Universal(a + "\r\n" + b) == a + "\n" + Universal(b)
  {
    var t := "\r\n" + b;
    SeqAssoc(a, "\r\n", b);
    UniversalFree(a);
    UniversalAppend(a, t);
    assert t[2..] == b;
    UniversalStep(t, 2, '\n');
    SeqAssoc(a, "\n", Universal(b));
  }

  /** After `\r`-free text, a `\r` not followed by `\n` reads as `\n`. */
  lemma {:induction false} UniversalLoneCr(a: string, b: string)
    requires '\r' !in a
    requires |b| == 0 || b[0] != '\n'
    ensures Universal(a + "\r" + b) == a + "\n" + Universal(b)
  {
    var t := "\r" + b;
    SeqAssoc(a, "\r", b);
    UniversalFree(a);
    UniversalAppend(a, t);
    assert t[1..] == b;
    UniversalStep(t, 1, '\n');
    SeqAssoc(a, "\n", Universal(b));
  }

  lemma {:induction false} UniversalPlain(s: string, ids: seq<string>)
    requires s == Records(ids)
    requires AllRecordable(ids)
    ensures Universal(s) == s
    decreases |ids|
  {
    if |ids| > 0 {
      UniversalPlain(Records(ids[1..]), ids[1..]);
      UniversalFree(ids[0] + "\n");
      UniversalAppend(ids[0] + "\n", Records(ids[1..]));
    }
  }

  lemma {:induction false} UniversalFree(s: string)
    requires '\r' !in s
    ensures Universal(s) == s
    decreases |s|
  {
    if |s| > 0 {
      UniversalFree(s[1..]);
      assert [s[0]] + s[1..] == s;
    }
  }

  lemma {:induction false} UniversalTerminated(s: string)
    requires Terminated(s)
    ensures Terminated(Universal(s))
    decreases |s|
  {
    if |s| > 0 {
      var r := Universal(s);
      if s[0] == '\r' && |s| >= 2 && s[1] == '\n' {
        UniversalTerminated(s[2..]);
      } else {
        UniversalTerminated(s[1..]);
      }
      assert r[|r| - 1] == '\n';
    }
  }

  lemma {:induction false} ReadLinesAppend(a: string, b: string)
    requires Terminated(a)
    ensures ReadLines(a + b) == ReadLines(a) + ReadLines(b)
    decreases |a|
  {
    if |a| == 0 {
      assert a + b == b;
    } else {
      var p := Head(a, '\n');
      var rest := a[|p| + 1..];
      assert a == p + "\n" + rest;
      assert |rest| == 0 || rest[|rest| - 1] == a[|a| - 1];
      ReadLinesAppend(rest, b);
      ReadLinesAppendStep(p, rest, b);
    }
  }

  lemma {:induction false} ReadLinesAppendStep(p: string, rest: string, b: string)
    requires '\n' !in p
    requires ReadLines(rest + b) == ReadLines(rest) + ReadLines(b)
    ensures ReadLines(p + "\n" + rest + b) == ReadLines(p + "\n" + rest) + ReadLines(b)
  {
    var first := p + "\n";
    ReadLinesStep(first + rest, p, rest);
    SeqAssoc(first, rest, b);
    ReadLinesStep(first + (rest + b), p, rest + b);
    SeqAssoc([first], ReadLines(rest), ReadLines(b));
  }

  /** A line ending in `\n` comes off the front of the text. */
  lemma {:induction false} ReadLinesStep(s: string, p: string, rest: string)
    requires '\n' !in p && s == p + "\n" + rest
    ensures ReadLines(s) == [p + "\n"] + ReadLines(rest)
  {
    HeadOfPiece(p, '\n', rest);
    assert s[..|p| + 1] == p + "\n";
    assert s[|p| + 1..] == rest;
  }

  /** The lines of the records: each id with its terminator. */
  function RecordLines(ids: seq<string>): (lines: seq<string>)
    ensures |lines| == |ids|
  {
    if |ids| == 0 then [] else [ids[0] + "\n"] + RecordLines(ids[1..])
  }

  lemma {:induction false} ReadLinesOfRecords(ids: seq<string>)
    requires AllRecordable(ids)
    ensures ReadLines(Records(ids)) == RecordLines(ids)
  {
    if |ids| > 0 {
      ReadLinesStep(Records(ids), ids[0], Records(ids[1..]));
      ReadLinesOfRecords(ids[1..]);
    }
  }

  lemma {:induction false} IdsAppend(l1: seq<string>, l2: seq<string>)
    ensures Ids(l1 + l2) == Ids(l1) + Ids(l2)
  {
    if |l1| == 0 {
      assert l1 + l2 == l2;
    } else {
      assert (l1 + l2)[1..] == l1[1..] + l2;
      IdsAppend(l1[1..], l2);
    }
  }

  lemma {:induction false} IdsOfRecordLines(ids: seq<string>)
    requires AllRecordable(ids)
    ensures Ids(RecordLines(ids)) == ids
  {
    if |ids| > 0 {
      var t := ids[1..];
      assert RecordLines(ids) == [ids[0] + "\n"] + RecordLines(t);
      assert ids == [ids[0]] + t;
      IdsOfRecordLines(t);
      IdsOfRecordLinesStep(ids[0], t);
    }
  }

  /** Every id of the batch is recordable, stated recursively for the proofs by induction. */
  predicate AllRecordable(ids: seq<string>)
  {
    |ids| == 0 || (Recordable(ids[0]) && AllRecordable(ids[1..]))
  }

  lemma {:induction false} AllRecordableOf(ids: seq<string>)
    requires forall id :: id in ids ==> Recordable(id)
    ensures AllRecordable(ids)
  {
    if |ids| > 0 {
      assert ids[0] in ids;
      var tail := ids[1..];
      assert forall id :: id in tail ==> id in ids;
      AllRecordableOf(tail);
    }
  }

  lemma {:induction false} IdsOfRecordLinesStep(id: string, tail: seq<string>)
    requires Recordable(id)
    requires Ids(RecordLines(tail)) == tail
    ensures Ids(RecordLines([id] + tail)) == [id] + tail
  {
    var lines := RecordLines([id] + tail);
    assert ([id] + tail)[1..] == tail;
    assert lines == [id + "\n"] + RecordLines(tail);
    StripRecord(id);
    assert lines[1..] == RecordLines(tail);
  }

  /** A recorded line strips back to its id. */
  lemma {:induction false} StripRecord(id: string)
    requires '\n' !in id
    ensures Strip(id + "\n") == id
  {
    var s := id + "\n";
    if |id| == 0 {
      assert Leading(s) == 1 by {
        assert s[1..] == "";
      }
      assert s[1..] == "";
    } else {
      assert s[0] != '\n';
      assert s[0..] == s;
      assert s[..|s| - 1] == id;
      assert TrimRight(s) == id;
    }
  }
}

=== FILE: responses.dfy ===
/** The checks the crawler makes on an API response before using it
    (afd_crawler.py `_login`, `_user_auth`, `_product`, `_get_post_content`):
    an HTTP status plus the JSON `code` or `ec` field, compared the way Python
    compares them. */
module Responses {
  import opened Wrappers

  /** A JSON scalar as `res.json()` decodes it. */
  datatype Json = Num(n: int) | Str(s: string) | Bool(b: bool) | Null

  /** The character of one decimal digit. */
  function DigitChar(d: nat): (c: char)
    requires d < 10
    ensures '0' <= c <= '9'
    ensures c as int - '0' as int == d
  {
    ('0' as int + d) as char
  }

  /** The decimal digits of a natural number, without leading zeros. */
  function Digits(n: nat): (s: string)
    ensures |s| >= 1
    ensures forall i :: 0 <= i < |s| ==> '0' <= s[i] <= '9'
    ensures |s| == 1 <==> n < 10
  {
    if n < 10 then [DigitChar(n)] else Digits(n / 10) + [DigitChar(n % 10)]
  }

  /** The number a string of decimal digits denotes. */
  function DigitsValue(s: string): nat
    requires forall i :: 0 <= i < |s| ==> '0' <= s[i] <= '9'
  {
    if |s| == 0 then 0
    else DigitsValue(s[..|s| - 1]) * 10 + (s[|s| - 1] as int - '0' as int)
  }

  /** Reading the digits back gives the number. */
  lemma {:induction false} DigitsRoundTrip(n: nat)
    ensures DigitsValue(Digits(n)) == n
  {
    if n >= 10 {
      var s := Digits(n);
      assert s[..|s| - 1] == Digits(n / 10);
      DigitsRoundTrip(n / 10);
    }
  }

  /** `str(n)` for a Python int. */
  function Decimal(n: int): (s: string)
    ensures |s| >= 1
    ensures n < 0 <==> s[0] == '-'
  {
    if n < 0 then "-" + Digits(-n) else Digits(n)
  }

  /** `str(value)` for a decoded JSON scalar. */
  function PyStr(j: Json): string
  {
    match j
    case Num(n) => Decimal(n)
    case Str(s) => s
    case Bool(b) => if b then "True" else "False"
    case Null => "None"
  }

  /** `str(res.json().get('code', ''))`: an absent code reads as the empty string. */
  function CodeText(code: Option<Json>): string
  {
    match code
    case None => ""
    case Some(j) => PyStr(j)
  }

  lemma {:induction false} DecimalIsMinusOne(n: int)
    ensures Decimal(n) == "-1" <==> n == -1
  {
    if n < 0 {
      var d := Digits(-n);
      assert Decimal(n) == "-" + d;
      if Decimal(n) == "-1" {
        assert d == Decimal(n)[1..] == "1";
        DigitsRoundTrip(-n);
      }
    } else {
      assert Decimal(n)[0] != '-';
    }
  }

  lemma {:induction false} DecimalIsZero(n: int)
    ensures Decimal(n) == "0" <==> n == 0
  {
    if n >= 0 && Decimal(n) == "0" {
      DigitsRoundTrip(n);
    }
  }

  /** The login call failed (line 192): a status other than 200, or a code whose
      text is `-1`. */
  predicate LoginRejected(status: int, code: Option<Json>)
  {
    status != 200 || CodeText(code) == "-1"
  }

  /** Which decoded codes the login check rejects: exactly the number -1 and
      the string "-1"; a missing code, `true` or `null` pass. */
  lemma {:induction false} LoginRejectedIff(status: int, code: Option<Json>)
    ensures LoginRejected(status, code)
        <==> status != 200 || code == Some(Num(-1)) || code == Some(Str("-1"))
  {
    if code.Some? && code.value.Num? {
      DecimalIsMinusOne(code.value.n);
    }
  }

  /** The account call failed (line 216): a status other than 200, or a code
      whose text is not `0`. */
  predicate AuthRejected(status: int, code: Option<Json>)
  {
    status != 200 || CodeText(code) != "0"
  }

  /** Which decoded codes the account check accepts: exactly the number 0 and
      the string "0"; in particular a missing code is rejected. */
  lemma {:induction false} AuthRejectedIff(status: int, code: Option<Json>)
    ensures !AuthRejected(status, code)
        <==> status == 200 && (code == Some(Num(0)) || code == Some(Str("0")))
  {
    if code.Some? && code.value.Num? {
      DecimalIsZero(code.value.n);
    }
  }

  /** The post-detail call failed (lines 281-288): a status other than 200, or
      an `ec` field that is not the number 200. */
  predicate DetailRejected(status: int, ec: Option<Json>)
  {
    status != 200 || ec != Some(Num(200))
  }
}

=== FILE: seqs.dfy ===
/** Small facts about sequences, kept out of the larger proofs so that each
    is discharged in a context of its own. */
module Seqs {

  lemma {:induction false} SeqAssoc<T>(x: seq<T>, y: seq<T>, z: seq<T>)
    ensures x + (y + z) == (x + y) + z
  {
  }

  lemma {:induction false} DropAppend<T>(a: seq<T>, b: seq<T>, k: nat)
    requires k <= |a|
    ensures (a + b)[k..] == a[k..] + b
  {
  }

  lemma {:induction false} ConsTail<T>(a: seq<T>, b: seq<T>)
    requires |b| > 0
    ensures a + [b[0]] + b[1..] == a + b
  {
    assert b == [b[0]] + b[1..];
  }

  lemma {:induction false} ElementsOfAppend<T>(x: seq<T>, y: seq<T>)
    ensures (set e | e in x + y) == (set e | e in x) + (set e | e in y)
  {
  }

  lemma {:induction false} ElementsOfPair<T>(ids: seq<T>, a: T, b: T)
    requires ids == [a, b]
    ensures (set id | id in ids) == {a, b}
  {
    assert ids[0] == a && ids[1] == b;
  }
}

=== FILE: session.dfy ===
/** The crawler's request steps (afd_crawler.py class `GeekCrawler`) with the
    network taken out: each step receives what the server answered and yields
    the crawler's next state, or the exception it raises together with the
    state it leaves behind. */
module Session {
  import opened Wrappers
  import opened CookieJar
  import opened SetCookie
  import opened Catalog
  import opened Responses
  import opened Progress
  import opened Filename

  /** What the crawler holds between requests: its cookies, the products found
      so far, the progress file (absent until first written) and the ids of
      the articles finished in this run. */
  datatype Crawler = Crawler(
    jar: seq<Cookie>,
    products: seq<Product>,
    file: Option<string>,
    finished: seq<string>)

  datatype Failure = RequestError | NotValueError

  /** The outcome of one step: the next state, or the exception raised and the
      state it leaves. */
  datatype Step = Ok(next: Crawler) | Raised(error: Failure, next: Crawler)

  /** `_save_finish_article_id_to_file()`: the finished ids appended to the file. */
  function Flush(c: Crawler): (r: Crawler)
    ensures r.jar == c.jar && r.products == c.products && r.finished == c.finished
    ensures r.file.Some?
  {
    c.(file := Some(Save(c.file, c.finished)))
  }

  /** Flushing before raising loses nothing: the file then loads as what it held
      plus the ids finished in this run. */
  lemma {:induction false} FlushKeepsProgress(c: Crawler)
    requires Terminated(c.file.GetOr(""))
    requires forall id :: id in c.finished ==> Recordable(id)
    ensures LoadIds(Flush(c).file) == LoadIds(c.file) + set id | id in c.finished
  {
    LoadAfterSave(c.file, c.finished);
  }

  /** `_login`, given the response status, its decoded `code` and the
      `data.auth_token` it carried (a missing token is stored as `None`, which is
      how it is later rendered into the cookie header). */
  function Login(c: Crawler, status: int, code: Option<Json>, token: Option<string>): (r: Step)
    requires WellFormed(c.jar)
    ensures r.Raised? <==> status != 200 || code == Some(Num(-1)) || code == Some(Str("-1"))
    ensures r.Raised? ==> r.error == RequestError && r.next == Flush(c)
    ensures r.Ok? ==> r.next.products == c.products && r.next.file == c.file && r.next.finished == c.finished
    ensures r.Ok? ==> WellFormed(r.next.jar)
    ensures r.Ok? ==>
      Names(r.next.jar) == (if "auth_token" in Names(c.jar) then Names(c.jar) else Names(c.jar) + ["auth_token"])
    ensures r.Ok? ==> Lookup(r.next.jar, "auth_token") == Some(token.GetOr("None"))
    ensures r.Ok? ==> forall n :: n != "auth_token" ==> Lookup(r.next.jar, n) == Lookup(c.jar, n)
  {
    LoginRejectedIff(status, code);
    if LoginRejected(status, code) then Raised(RequestError, Flush(c))
    else Ok(c.(jar := Put(c.jar, "auth_token", token.GetOr("None"))))
  }

  /** `_user_auth`, given the response status, its decoded `code` and its
      `Set-Cookie` header. */
  function UserAuth(c: Crawler, status: int, code: Option<Json>, setCookie: string): (r: Step)
    requires WellFormed(c.jar)
    ensures r.Ok? <==> status == 200 && (code == Some(Num(0)) || code == Some(Str("0")))
    ensures r.Raised? ==> r.error == RequestError && r.next == Flush(c)
    ensures r.Ok? ==> r.next.products == c.products && r.next.file == c.file && r.next.finished == c.finished
    ensures r.Ok? ==> WellFormed(r.next.jar)
    ensures r.Ok? ==> |c.jar| <= |r.next.jar| && Names(r.next.jar)[..|c.jar|] == Names(c.jar)
    ensures r.Ok? ==> var parsed := ListToDict(SetCookieFragments(setCookie));
      forall n :: Lookup(r.next.jar, n) == if n in Names(parsed) then Lookup(parsed, n) else Lookup(c.jar, n)
  {
    AuthRejectedIff(status, code);
    if AuthRejected(status, code) then Raised(RequestError, Flush(c))
    else Ok(c.(jar := LoadSetCookie(c.jar, setCookie)))
  }

  /** The `data` field of the catalogue response as `res.json().get('data', {})`
      sees it: missing, JSON `null`, or an object. */
  datatype DataField = Missing | Null | Object(listing: Listing)

  /** Python truthiness of that value: only a non-empty object is true. */
  predicate Truthy(d: DataField)
  {
    d.Object? && (d.listing.list.Some? || d.listing.otherKeys > 0)
  }

  /** The catalogue half of `_product`. A failed status raises without saving
      progress; an empty or missing `data` saves progress and raises; otherwise
      the listing's products are appended. */
  function ListCatalog(c: Crawler, status: int, data: DataField): (r: Step)
    ensures status != 200 ==> r == Raised(RequestError, c)
    ensures status == 200 && !Truthy(data) ==> r == Raised(NotValueError, Flush(c))
    ensures r.Ok? <==> status == 200 && Truthy(data)
    ensures r.Ok? ==> r.next == c.(products := c.products + Products(PostsOf(data.listing)))
  {
    if status != 200 then Raised(RequestError, c)
    else if Truthy(data) then Ok(c.(products := c.products + Products(PostsOf(data.listing))))
    else Raised(NotValueError, Flush(c))
  }

  /** A listing that is present but empty is not an error: nothing is added. */
  lemma {:induction false} EmptyListIsNotAnError(c: Crawler, otherKeys: nat)
    ensures ListCatalog(c, 200, Object(Listing(Some([]), otherKeys))) == Ok(c)
  {
    var r := ListCatalog(c, 200, Object(Listing(Some([]), otherKeys)));
    assert c.products + [] == c.products;
  }

  /** `_get_post_content`: the post's HTML, or a request error when the status
      or the `ec` field is wrong; progress is not saved on this path. The `ec`
      comparison is with the number 200, so the text "200" is an error. */
  function PostContent(status: int, ec: Option<Json>, content: string): (r: Result<string, Failure>)
    ensures r.Success? <==> !DetailRejected(status, ec)
    ensures r.Success? ==> r.value == content
    ensures r.Failure? ==> r.error == RequestError
    ensures ec == Some(Str("200")) ==> r.Failure?
  {
    if status != 200 then Failure(RequestError)
    else if ec != Some(Num(200)) then Failure(RequestError)
    else Success(content)
  }

  /** The directory every exported post goes to. */
  const ExportDir: string := "9adgq"

  /** Where `save_to_file` writes a post with the given title. A title cannot
      steer the file out of the export directory: the path is the directory,
      one `/`, and a name with no separator that ends in `.md`. */
  function ExportPath(title: string): (path: string)
    ensures |path| >= |ExportDir| + 4
    ensures path[..|ExportDir| + 1] == ExportDir + "/"
    ensures '/' !in path[|ExportDir| + 1..] && '\\' !in path[|ExportDir| + 1..]
    ensures path[|path| - 3..] == ".md"
  {
    var dir, name := ExportDir + "/", ExportName(title);
    SplitAt(dir, name);
    assert '/' !in name && '\\' !in name;
    dir + name
  }

  lemma {:induction false} SplitAt(a: string, b: string)
    requires |b| >= 3
    ensures (a + b)[..|a|] == a && (a + b)[|a|..] == b
    ensures (a + b)[|a + b| - 3..] == b[|b| - 3..]
  {
  }
}

=== FILE: set_cookie.dfy ===
/** Reading cookies from a `Set-Cookie` response header (afd_crawler.py
    `Cookie.load_set_cookie`): a regular-expression substitution that removes
    expiry attributes, a split on `,`, and the text of each piece before its
    first `;`. */
module SetCookie {
  import opened Wrappers
  import opened Text
  import opened Seqs
  import opened CookieJar

  /** The pattern `.xpires=.*?;` matches the first `n` characters of `s`: one
      character other than a line feed, the text `xpires=`, then line-feed-free
      text up to and including a `;`. */
  ghost predicate MatchesAt(s: string, n: nat)
  {
    && 9 <= n <= |s|
    && s[0] != '\n' && s[1..8] == "xpires="
    && s[n - 1] == ';'
    && forall i :: 8 <= i < n - 1 ==> s[i] != '\n'
  }

  /** The first `;` at or after `i` that no line feed precedes. */
  function SemicolonFrom(s: string, i: nat): (r: Option<nat>)
    requires i <= |s|
    ensures r.Some? ==> i <= r.value < |s| && s[r.value] == ';'
    ensures r.Some? ==> forall j :: i <= j < r.value ==> s[j] != ';' && s[j] != '\n'
    ensures r.None? ==> forall q :: i <= q < |s| && s[q] == ';' ==> '\n' in s[i..q]
    decreases |s| - i
  {
    if i == |s| then None
    else if s[i] == ';' then Some(i)
    else if s[i] == '\n' then None
    else
      var r := SemicolonFrom(s, i + 1);
      assert forall q :: i + 1 <= q < |s| ==> s[i..q] == [s[i]] + s[i + 1..q];
      r
  }

  /** The lazy match at the head of `s`: its length, the shortest of all
      lengths the pattern can match, or None when it matches at no length. */
  function ExpiresMatch(s: string): (r: Option<nat>)
    ensures r.Some? ==> MatchesAt(s, r.value) && forall n :: MatchesAt(s, n) ==> r.value <= n
    ensures r.None? ==> forall n :: !MatchesAt(s, n)
  {
    if |s| < 9 || s[0] == '\n' || s[1..8] != "xpires=" then None
    else
      match SemicolonFrom(s, 8)
      case Some(q) => Some(q + 1)
      case None => None
  }

  /** `re.sub(".xpires=.*?;", "", s)`: scanning left to right, each match is
      removed and the scan resumes right after it. */
  function StripExpires(s: string): (r: string)
    ensures |r| <= |s|
    decreases |s|
  {
    if |s| == 0 then ""
    else
      match ExpiresMatch(s)
      case Some(n) => StripExpires(s[n..])
      case None => [s[0]] + StripExpires(s[1..])
  }

  /** Every match ends in `;`, so a header without `;` passes unchanged. */
  lemma {:induction false} StripExpiresWithoutSemicolon(s: string)
    requires ';' !in s
    ensures StripExpires(s) == s
    decreases |s|
  {
    if |s| > 0 {
      assert ExpiresMatch(s).None?;
      assert ';' !in s[1..];
      StripExpiresWithoutSemicolon(s[1..]);
      assert [s[0]] + s[1..] == s;
    }
  }

  /** `xpires=` starts at position `i` of `s`. */
  predicate MarkerAt(s: string, i: nat)
  {
    i + 7 <= |s| && s[i..i + 7] == "xpires="
  }

  predicate NoMarker(s: string)
  {
    forall i: nat :: i < |s| ==> !MarkerAt(s, i)
  }

  /** A header without the text `xpires=` passes the substitution unchanged. */
  lemma {:induction false} StripExpiresWithoutMarker(s: string)
    requires NoMarker(s)
    ensures StripExpires(s) == s
    decreases |s|
  {
    if |s| > 0 {
      assert !MarkerAt(s, 1);
      assert ExpiresMatch(s).None?;
      forall i: nat | i < |s[1..]|
        ensures !MarkerAt(s[1..], i)
      {
        assert !MarkerAt(s, i + 1);
        if i + 7 <= |s[1..]| {
          assert s[1..][i..i + 7] == s[i + 1..i + 8];
        }
      }
      StripExpiresWithoutMarker(s[1..]);
      assert s == [s[0]] + s[1..];
    }
  }

  /** The piece of each comma-separated fragment before its first `;`. */
  function Heads(pieces: seq<string>): (hs: seq<string>)
    ensures |hs| == |pieces|
  {
    seq(|pieces|, i requires 0 <= i < |pieces| => Head(pieces[i], ';'))
  }

  /** The `name=value` texts `load_set_cookie` hands to `list_to_dict`: one per
      comma-separated piece of the stripped header, each the longest `;`-free
      start of its piece, so at least one, and none holding `,` or `;`. */
  function SetCookieFragments(header: string): (frags: seq<string>)
    ensures |frags| >= 1
    ensures forall i :: 0 <= i < |frags| ==> ',' !in frags[i] && ';' !in frags[i]
    ensures var pieces := Split(StripExpires(header), ',');
      && |frags| == |pieces|
      && forall i :: 0 <= i < |frags| ==>
        && |frags[i]| <= |pieces[i]| && frags[i] == pieces[i][..|frags[i]|]
        && (|frags[i]| == |pieces[i]| || pieces[i][|frags[i]|] == ';')
  {
    var pieces := Split(StripExpires(header), ',');
    HeadsPlain(pieces);
    Heads(pieces)
  }

  lemma {:induction false} HeadsPlain(pieces: seq<string>)
    requires forall i :: 0 <= i < |pieces| ==> ',' !in pieces[i]
    ensures forall i :: 0 <= i < |Heads(pieces)| ==> ',' !in Heads(pieces)[i] && ';' !in Heads(pieces)[i]
  {
    var hs := Heads(pieces);
    forall i | 0 <= i < |hs|
      ensures ',' !in hs[i] && ';' !in hs[i]
    {
      var h := Head(pieces[i], ';');
      assert hs[i] == h;
      assert h == pieces[i][..|h|];
      assert forall k :: 0 <= k < |h| ==> h[k] == pieces[i][k];
    }
  }

  /** `load_set_cookie`: merge the cookies of the header over the jar. */
  function LoadSetCookie(jar: seq<Cookie>, header: string): (r: seq<Cookie>)
    requires WellFormed(jar)
    ensures WellFormed(r)
    ensures |jar| <= |r| && Names(r)[..|jar|] == Names(jar)
    ensures var parsed := ListToDict(SetCookieFragments(header));
      forall n :: Lookup(r, n) == if n in Names(parsed) then Lookup(parsed, n) else Lookup(jar, n)
  {
    var parsed := ListToDict(SetCookieFragments(header));
    MergeDicts(jar, parsed);
    Merge(jar, parsed)
  }

  /** The cookie a fragment yields holds none of `,` `;` `=` when the fragment
      holds neither `,` nor `;`. */
  lemma {:induction false} ParsedCookiePlain(frag: string)
    requires ',' !in frag && ';' !in frag
    requires ParsePair(frag).Some?
    ensures var c := ParsePair(frag).value;
      && ',' !in c.name && ';' !in c.name && '=' !in c.name
      && ',' !in c.value && ';' !in c.value && '=' !in c.value
  {
    var c := ParsePair(frag).value;
    var n := |c.name| + 1 + |c.value|;
    var w := c.name + "=" + c.value;
    assert frag[..n] == w;
    assert c.name == w[..|c.name|];
    assert c.value == w[|c.name| + 1..];
  }

  /** Every cookie `load_set_cookie` reads from any header is free of `,`, `;`
      and `=`, in its name and in its value. */
  lemma {:induction false} SetCookieCookiesPlain(header: string)
    ensures var parsed := ListToDict(SetCookieFragments(header));
      forall i :: 0 <= i < |parsed| ==>
        && ',' !in parsed[i].name && ';' !in parsed[i].name && '=' !in parsed[i].name
        && ',' !in parsed[i].value && ';' !in parsed[i].value && '=' !in parsed[i].value
  {
    var frags := SetCookieFragments(header);
    var parsed := ListToDict(frags);
    forall i | 0 <= i < |parsed|
      ensures && ',' !in parsed[i].name && ';' !in parsed[i].name && '=' !in parsed[i].name
              && ',' !in parsed[i].value && ';' !in parsed[i].value && '=' !in parsed[i].value
    {
      assert parsed[i] in Parsed(frags);
      var k :| 0 <= k < |frags| && ParsePair(frags[k]) == Some(parsed[i]);
      ParsedCookiePlain(frags[k]);
    }
  }

  /** One cookie of a `Set-Cookie` header: `name=value`, then optionally `;`
      and its attributes. */
  datatype SetCookieLine = SetCookieLine(cookie: Cookie, attributes: Option<string>)

  function LineText(l: SetCookieLine): string
  {
    l.cookie.name + "=" + l.cookie.value + (if l.attributes.Some? then ";" + l.attributes.value else "")
  }

  /** Several cookies in one header value, joined with `,`. */
  function Header(ls: seq<SetCookieLine>): string
  {
    Join(Lines(ls), ',')
  }

  function CookiesOf(ls: seq<SetCookieLine>): (cs: seq<Cookie>)
    ensures |cs| == |ls|
  {
    seq(|ls|, i requires 0 <= i < |ls| => ls[i].cookie)
  }

  /** No `,` `;` `=` in names and values, no `,` in attributes. */
  predicate PlainLines(ls: seq<SetCookieLine>)
  {
    forall i :: 0 <= i < |ls| ==>
      && ',' !in ls[i].cookie.name && ';' !in ls[i].cookie.name && '=' !in ls[i].cookie.name
      && ',' !in ls[i].cookie.value && ';' !in ls[i].cookie.value && '=' !in ls[i].cookie.value
      && (ls[i].attributes.Some? ==> ',' !in ls[i].attributes.value)
  }

  lemma {:induction false} HeadOfLine(l: SetCookieLine)
    requires ';' !in l.cookie.name && ';' !in l.cookie.value
    ensures Head(LineText(l), ';') == l.cookie.name + "=" + l.cookie.value
  {
    var p := l.cookie.name + "=" + l.cookie.value;
    assert ';' !in p;
    if l.attributes.Some? {
      assert LineText(l) == p + ([';'] + l.attributes.value);
      SeqAssoc(p, [';'], l.attributes.value);
      HeadOfPiece(p, ';', l.attributes.value);
    } else {
      assert LineText(l) == p + "";
      HeadOfSeparatorFree(p, ';');
    }
  }

  /** The header's lines, each `LineText` of its cookie. */
  function Lines(ls: seq<SetCookieLine>): (lines: seq<string>)
    ensures |lines| == |ls|
  {
    seq(|ls|, i requires 0 <= i < |ls| => LineText(ls[i]))
  }

  lemma {:induction false} LinesCommaFree(ls: seq<SetCookieLine>)
    requires PlainLines(ls)
    ensures forall i :: 0 <= i < |Lines(ls)| ==> ',' !in Lines(ls)[i]
  {
    var lines := Lines(ls);
    forall i | 0 <= i < |lines|
      ensures ',' !in lines[i]
    {
      var l := ls[i];
      var p := l.cookie.name + "=" + l.cookie.value;
      assert ',' !in p;
      if l.attributes.Some? {
        assert lines[i] == p + ";" + l.attributes.value;
      }
    }
  }

  lemma {:induction false} HeadsOfLines(ls: seq<SetCookieLine>)
    requires PlainLines(ls)
    ensures Heads(Lines(ls)) == Rendered(CookiesOf(ls))
  {
    var lines, cs := Lines(ls), CookiesOf(ls);
    forall i | 0 <= i < |ls|
      ensures Heads(lines)[i] == Rendered(cs)[i]
    {
      HeadOfLine(ls[i]);
    }
  }

  /** A header of plain cookies without the text `xpires=`: loading it assigns
      each `name=value` in order, a repeated name taking its last value, names
      untrimmed, the attributes ignored. */
  lemma {:induction false} LoadSetCookieOfPlainHeader(jar: seq<Cookie>, ls: seq<SetCookieLine>)
    requires WellFormed(jar)
    requires PlainLines(ls)
    requires NoMarker(Header(ls))
    ensures LoadSetCookie(jar, Header(ls)) == Merge(jar, CookiesOf(ls))
  {
    var h := Header(ls);
    StripExpiresWithoutMarker(h);
    var cs := CookiesOf(ls);
    if |ls| == 0 {
      assert Split(h, ',') == [""];
      assert SetCookieFragments(h) == [Head("", ';')];
      assert Head("", ';') == "";
      assert Parsed([""]) == [];
      assert ListToDict(SetCookieFragments(h)) == [];
      assert cs == [];
    } else {
      var lines := Lines(ls);
      assert h == Join(lines, ',');
      LinesCommaFree(ls);
      SplitJoin(lines, ',');
      HeadsOfLines(ls);
      assert SetCookieFragments(h) == Rendered(cs);
      assert Plain(cs);
      ListToDictOfRendered(cs);
      MergeOfDict(jar, cs);
    }
  }

  /** No match can start where the next character is not `x`. */
  lemma {:induction false} StripExpiresStep(s: string)
    requires |s| >= 2 && s[1] != 'x'
    ensures StripExpires(s) == [s[0]] + StripExpires(s[1..])
  {
    assert ExpiresMatch(s).None?;
  }

  /** The first character of `a` cannot start a match when the next one is not `x`. */
  lemma {:induction false} SkipFirst(a: string, rest: string)
    requires |a| > 0 && |rest| > 0 && rest[0] != 'x'
    requires 'x' !in a[1..]
    ensures StripExpires(a + rest) == [a[0]] + StripExpires(a[1..] + rest)
  {
    var s := a + rest;
    if |a| > 1 {
      assert s[1] == a[1..][0];
    } else {
      assert s[1] == rest[0];
    }
    StripExpiresStep(s);
    assert s[1..] == a[1..] + rest;
  }

  /** Where no `x` follows any character of `a`, no match starts in `a`. */
  lemma {:induction false} StripExpiresSkips(a: string, rest: string)
    requires |rest| > 0 && rest[0] != 'x'
    requires |a| > 0 ==> 'x' !in a[1..]
    ensures StripExpires(a + rest) == a + StripExpires(rest)
    decreases |a|
  {
    if |a| > 0 {
      var t, x := a[1..], StripExpires(rest);
      assert StripExpires(a + rest) == [a[0]] + StripExpires(t + rest) by {
        SkipFirst(a, rest);
      }
      assert StripExpires(t + rest) == t + x by {
        assert |t| > 0 ==> t[1..] == a[2..];
        StripExpiresSkips(t, rest);
      }
      SeqAssoc([a[0]], t, x);
      assert [a[0]] + t == a;
    } else {
      assert a + rest == rest;
    }
  }

  /** An expiry attribute that is its cookie's last attribute: the lazy match
      runs on through the comma into the next cookie, up to that cookie's `;`,
      so the header `a=1;expires=0,b=2;` yields the cookie `a` alone. */
  lemma {:induction false} LoadSetCookieSwallowsNextCookie(header: string)
    requires header == "a=1;expires=0,b=2;"
    ensures LoadSetCookie([], header) == [Cookie("a", "1")]
  {
    var a, m := "a=1;", "expires=0,b=2;";
    assert SetCookieFragments(header) == ["a=1"] by {
      assert a + m == header;
      ExampleStrip(a, m);
      ExampleFragments(a);
    }
    assert ListToDict(["a=1"]) == [Cookie("a", "1")] by {
      ExampleListToDict(["a=1"]);
    }
  }

  lemma {:induction false} ExampleListToDict(frags: seq<string>)
    requires frags == ["a=1"]
    ensures ListToDict(frags) == [Cookie("a", "1")]
  {
    ParseRendered(Cookie("a", "1"));
    assert Parsed(frags) == [Cookie("a", "1")];
    MergeFresh([], [Cookie("a", "1")]);
  }

  lemma {:induction false} ExampleMatch(m: string)
    requires m == "expires=0,b=2;"
    ensures ExpiresMatch(m) == Some(|m|)
  {
    assert MatchesAt(m, |m|);
    forall n | MatchesAt(m, n)
      ensures |m| <= n
    {
      assert m[n - 1] == ';';
    }
  }

  lemma {:induction false} ExampleStrip(a: string, m: string)
    requires a == "a=1;" && m == "expires=0,b=2;"
    ensures StripExpires(a + m) == a
  {
    ExampleNoX(a, m);
    ExampleMatch(m);
    assert m[|m|..] == "";
    assert StripExpires(m) == "";
    StripExpiresSkips(a, m);
  }

  lemma {:induction false} ExampleNoX(a: string, m: string)
    requires a == "a=1;" && m == "expires=0,b=2;"
    ensures m[0] != 'x' && 'x' !in a[1..]
  {
  }

  lemma {:induction false} ExampleFragments(a: string)
    requires a == "a=1;"
    ensures Heads(Split(a, ',')) == ["a=1"]
  {
    SplitOfSeparatorFree(a, ',');
    var p := "a=1";
    assert a == p + [';'] + "";
    SplitAfterPiece(p, ';', "");
  }

  /** A name the header repeats takes its last value: `a=1,a=2` yields `a=2`. */
  lemma {:induction false} LoadSetCookieKeepsLastValue(header: string)
    requires header == "a=1,a=2"
    ensures LoadSetCookie([], header) == [Cookie("a", "2")]
  {
    var frags := SetCookieFragments(header);
    var c := Cookie("a", "2");
    assert frags == ["a=1", "a=2"] by {
      RepeatedFragments(header, "a=1", "a=2");
    }
    assert ListToDict(frags) == [c] by {
      RepeatedDict(frags, Cookie("a", "1"), c);
    }
    assert LoadSetCookie([], header) == Merge([], [c]);
    MergeFresh([], [c]);
    assert [] + [c] == [c];
  }

  lemma {:induction false} RepeatedFragments(header: string, p1: string, p2: string)
    requires header == "a=1,a=2" && p1 == "a=1" && p2 == "a=2"
    ensures SetCookieFragments(header) == [p1, p2]
  {
    StripExpiresWithoutSemicolon(header);
    RepeatedSplit(header, p1, p2);
    HeadOfSeparatorFree(p1, ';');
    HeadOfSeparatorFree(p2, ';');
  }

  lemma {:induction false} RepeatedSplit(header: string, p1: string, p2: string)
    requires header == "a=1,a=2" && p1 == "a=1" && p2 == "a=2"
    ensures Split(header, ',') == [p1, p2]
  {
    assert header == p1 + [','] + p2;
    SplitTwo(p1, p2, ',');
  }

  /** Two separator-free pieces joined by the separator split back apart. */
  lemma {:induction false} SplitTwo(p1: string, p2: string, sep: char)
    requires sep !in p1 && sep !in p2
    ensures Split(p1 + [sep] + p2, sep) == [p1, p2]
  {
    var parts := [p1, p2];
    assert parts[1..] == [p2];
    assert Join(parts, sep) == p1 + [sep] + p2;
    SplitJoin(parts, sep);
  }

  lemma {:induction false} RepeatedDict(frags: seq<string>, c1: Cookie, c2: Cookie)
    requires frags == ["a=1", "a=2"] && c1 == Cookie("a", "1") && c2 == Cookie("a", "2")
    ensures ListToDict(frags) == [c2]
  {
    assert frags[0] == c1.name + "=" + c1.value && frags[1] == c2.name + "=" + c2.value;
    ParseRendered(c1);
    ParseRendered(c2);
    ParsedTwo(frags, c1, c2);
    RepeatedMerge(c1, c2);
  }

  lemma {:induction false} ParsedTwo(frags: seq<string>, c1: Cookie, c2: Cookie)
    requires |frags| == 2 && ParsePair(frags[0]) == Some(c1) && ParsePair(frags[1]) == Some(c2)
    ensures Parsed(frags) == [c1, c2]
  {
    var rest := frags[1..];
    assert rest[0] == frags[1] && |rest[1..]| == 0;
    assert Parsed(rest[1..]) == [];
    assert Parsed(rest) == [c2] + Parsed(rest[1..]);
    assert Parsed(frags) == [c1] + Parsed(rest);
  }

  lemma {:induction false} RepeatedMerge(c1: Cookie, c2: Cookie)
    requires c1 == Cookie("a", "1") && c2 == Cookie("a", "2")
    ensures Merge([], [c1, c2]) == [c2]
  {
    assert Put([], "a", "1") == [c1];
    assert [c1, c2][1..] == [c2];
    assert Put([c1], "a", "2") == [c2];
    assert Merge([c1], [c2]) == Merge([c2], []);
  }
}

=== FILE: text.dfy ===
/** Python's `str.split` and `str.join` for a one-character separator. */
module Text {

  /** `sep.join(parts)`: the parts with one separator between neighbours. */
  function Join(parts: seq<string>, sep: char): (s: string)
    ensures |parts| == 1 ==> s == parts[0]
    ensures (forall i :: 0 <= i < |parts| ==> sep !in parts[i]) ==> |parts| <= 1 || sep in s
  {
    if |parts| == 0 then ""
    else if |parts| == 1 then parts[0]
    else parts[0] + [sep] + Join(parts[1..], sep)
  }

  /** `s.split(sep)`: the maximal separator-free pieces, in order; never empty,
      and the empty string splits into one empty piece. */
  function Split(s: string, sep: char): (parts: seq<string>)
    ensures |parts| >= 1
    ensures forall i :: 0 <= i < |parts| ==> sep !in parts[i]
    ensures Join(parts, sep) == s
    ensures |parts| == 1 <==> sep !in s
  {
    if |s| == 0 then [""]
    else
      var rest := Split(s[1..], sep);
      if s[0] == sep then
        assert s == [sep] + s[1..];
        [""] + rest
      else
        var parts := [[s[0]] + rest[0]] + rest[1..];
        assert parts[1..] == rest[1..];
        assert s == [s[0]] + s[1..];
        parts
  }

  /** The piece before the first separator: `s.split(sep)[0]`. */
  function Head(s: string, sep: char): (h: string)
    ensures sep !in h
    ensures |h| <= |s| && h == s[..|h|]
    ensures |h| == |s| || s[|h|] == sep
  {
    var parts := Split(s, sep);
    JoinStartsWithFirst(parts, sep);
    parts[0]
  }

  lemma {:induction false} JoinStartsWithFirst(parts: seq<string>, sep: char)
    requires |parts| >= 1
    ensures |parts[0]| <= |Join(parts, sep)|
    ensures Join(parts, sep)[..|parts[0]|] == parts[0]
    ensures |parts| >= 2 ==> Join(parts, sep)[|parts[0]|] == sep
  {
  }

  /** Splitting what was joined gives the parts back, provided none holds the separator. */
  lemma {:induction false} SplitJoin(parts: seq<string>, sep: char)
    requires |parts| >= 1
    requires forall i :: 0 <= i < |parts| ==> sep !in parts[i]
    ensures Split(Join(parts, sep), sep) == parts
  {
    if |parts| == 1 {
      SplitOfSeparatorFree(parts[0], sep);
    } else {
      SplitJoin(parts[1..], sep);
      SplitAfterPiece(parts[0], sep, Join(parts[1..], sep));
      assert [parts[0]] + parts[1..] == parts;
    }
  }

  lemma {:induction false} SplitOfSeparatorFree(s: string, sep: char)
    requires sep !in s
    ensures Split(s, sep) == [s]
  {
  }

  lemma {:induction false} SplitAfterPiece(p: string, sep: char, rest: string)
    requires sep !in p
    ensures Split(p + [sep] + rest, sep) == [p] + Split(rest, sep)
  {
    if |p| == 0 {
      assert p + [sep] + rest == [sep] + rest;
      assert ([sep] + rest)[1..] == rest;
    } else {
      var s := p + [sep] + rest;
      assert s[0] == p[0] && s[0] != sep;
      assert s[1..] == p[1..] + [sep] + rest;
      SplitAfterPiece(p[1..], sep, rest);
      var tail := Split(s[1..], sep);
      assert tail == [p[1..]] + Split(rest, sep);
      assert tail[0] == p[1..];
      assert tail[1..] == Split(rest, sep);
      assert [p[0]] + p[1..] == p;
      assert Split(s, sep) == [[s[0]] + tail[0]] + tail[1..];
    }
  }

  /** The piece before the first separator, when it is known. */
  lemma {:induction false} HeadOfPiece(p: string, sep: char, rest: string)
    requires sep !in p
    ensures Head(p + [sep] + rest, sep) == p
  {
    SplitAfterPiece(p, sep, rest);
  }

  lemma {:induction false} HeadOfSeparatorFree(p: string, sep: char)
    requires sep !in p
    ensures Head(p, sep) == p
  {
    SplitOfSeparatorFree(p, sep);
  }
}

=== FILE: wrappers.dfy ===
/** Optional values and results with an error value, used where the program
    returns `None`, leaves a JSON field out, or raises one of its own errors. */
module Wrappers {

  datatype Option<+T> = None | Some(value: T) {

    /** Returns the value inside Some, or `default` for None (Python's `d.get(k, default)`) */
    function GetOr(default: T): T {
      match this
      case Some(v) => v
      case None => default
    }
  }

  datatype Result<+R, +E> = Success(value: R) | Failure(error: E)
}
